=== FILE: README.md ===
# Haptica core, modelled in Dafny

Haptica is an iOS app. It records touches on a canvas as haptic patterns,
plays them back, and shares them with nearby devices over
MultipeerConnectivity. Most of the app is SwiftUI and platform glue. This
project models the deterministic logic underneath and proves properties of it.

- **Recorder** (`recorder.dfy`, `recorder_trace.dfy`): the state machine of
  `HapticRecorder.Observed`.
  - Its five modes, and how registering a touch, resetting, starting and
    stopping a recording, and starting and stopping playback change the mode
    and the touch lists.
  - The mapping from recorded touches to transient haptic events: intensity
    and sharpness clamped into [0, 1], times measured from the earliest touch.
  - A trace module runs arbitrary sequences of user actions from the initial
    state, loading a recording from a file among them. Between actions the
    recorder is never `loading`, and it only ever offers or plays a
    recording that one of those actions saved or loaded.
- **Sequence helpers** (`sequence_extensions.dfy`):
  - `duplicatesRemoved` is proved equal to an independent "first occurrences"
    definition.
  - `removeDuplicates()` assigns `duplicatesRemoved` to the array, so it is
    the same function here.
  - `removeAllOccurrences(of:)` is also modelled.
- **Haptic envelopes** (`haptic.dfy`): the event lists built by the warning,
  roll-away, level-change and ticks haptics before they reach the engine.
  `Double` and `Float` are idealised as `real`.
- **Order helpers** (`comparable.dfy`): `clamped(to:)` and `between(lhs:rhs:)`.
- **Dictionary helpers** (`dictionary_extension.dfy`): `mapKeys` and
  `toDictionary`.
  - A Swift dictionary is a `map` plus its iteration order, which is a
    parameter.
  - A key transform that throws becomes a function returning `Result`.
  - The trap on duplicate keys becomes a precondition.
- **Nearby peers** (`nearby_peer.dfy`): `NearbyPeer`, and the raw
  `[String: String]` encoding of its `DiscoveryInfo`.
- **Connectivity** (`connectivity_manager.dfy`, `connectivity_trace.dfy`): the
  peer bookkeeping of `ConnectivityManager`.
  - Each method and delegate callback is one atomic step on an immutable
    record.
  - The session, browser and advertiser are implicitly unwrapped optionals.
    A force-unwrap of one that is absent is a precondition, and a trap in a
    trace. The trace runs the methods as written, so terminating or
    resetting a manager without a session traps there too.
  - A trace module shows that every run keeps the manager's bookkeeping
    consistent. Besides the manager's own methods and callbacks, a run may
    contain the invitation toast's write of `false` to `hasInvitation`.

`Option` and `Result` are defined in `wrappers.dfy`.

Dates are seconds as `real`. URLs and `MCPeerID`s are opaque datatypes. The
outcome of saving a pattern to a file is an input to `stopRecording`, and
the touches read back from a file are an input to `loadRecording`.

## Model

| member | source | states |
|---|---|---|
| Recorder.ExactlyOneMode | Haptica/HapticRecorder.swift:226-253 | In every state exactly one of isIdle, isLoading, isRecording, isReadyForPlayback, isPlaybackInProgress holds |
| Recorder.RegisterTouch | Haptica/HapticRecorder.swift:263-266 | When idle, recording or ready for playback, exactly one touch is appended at the end, stamped with the running time. Nothing else changes. In the other two modes the state is untouched |
| Recorder.Reset | Haptica/HapticRecorder.swift:320-327 | From any state, both touch lists end up empty, the mode is idle and the running time is zero |
| Recorder.ResetForgetsEverything | Haptica/HapticRecorder.swift:320-327 | Every state resets to the same initial state |
| Recorder.StartRecording | Haptica/HapticRecorder.swift:329-347 | Recording starts from `now`, with empty touch lists and zero running time |
| Recorder.StartPlayback | Haptica/HapticRecorder.swift:377-384 | readyForPlayback(u) becomes playbackInProgress(u) with the same URL. Every other mode is left unchanged |
| Recorder.StopPlayback | Haptica/HapticRecorder.swift:386-392 | playbackInProgress(u) becomes readyForPlayback(u) and the running time is zeroed. Every other mode is left unchanged |
| Recorder.StopUndoesStartPlayback | Haptica/HapticRecorder.swift:377-392 | Starting and then stopping playback restores readyForPlayback(u). Only the running time changes |
| Recorder.PlaybackTogglesAreIdempotent | Haptica/HapticRecorder.swift:377-392 | Starting playback twice is the same as starting it once, and likewise for stopping |
| Recorder.MinDate | Haptica/HapticRecorder.swift:446 | The earliest creation date is absent only for no items. It is a lower bound of all the dates and is one of them |
| Recorder.RelativeTimeForRecordedItems | Haptica/HapticRecorder.swift:445-448 | With recorded touches, the result is the date minus the earliest recorded date: at least the date minus each recorded date, and equal to one of them. With none, it is the date minus now |
| Recorder.RelativeTimeOfRecordedTouch | Haptica/HapticRecorder.swift:445-448 | A recorded touch's relative time is at least 0. It is exactly 0 iff no recorded touch is earlier |
| Recorder.EventsAgainst | Haptica/HapticRecorder.swift:356-364 | One event per item, in order. Intensity is clamp(x) and sharpness is clamp(1 − y), both in [0, 1]. No attack time. The time is the item's relativeTimeForRecordedItems |
| Recorder.PatternFrom | Haptica/HapticRecorder.swift:450-462 | One event per touch, with intensity clamp(x), sharpness clamp(1 − y) and no attack time. No event is before time 0, the earliest touch is at exactly 0, and the gaps between event times equal the gaps between creation dates |
| Recorder.PatternFromAsWritten | Haptica/HapticRecorder.swift:450-462 | Event times are measured from the earliest recorded touch, not from the argument's touches |
| Recorder.PatternFromAsWrittenCanBeNegative | Haptica/HapticRecorder.swift:445-457 | A recorded touch at 5 and an argument touch at 3 give an event at time −2 |
| Recorder.PatternFromAgreesOnRecorded | Haptica/HapticRecorder.swift:445-462 | On the recorded touches the as-written and the corrected pattern coincide |
| Recorder.StopRecording | Haptica/HapticRecorder.swift:349-375 | The saved pattern is the corrected pattern of the recorded touches. The mode ends as readyForPlayback(url) after a successful save and as idle after a failed one. It is never recording or loading. The touch lists are kept and the running time is zeroed |
| Recorder.LoadRecording | Haptica/HapticRecorder.swift:282-295 | A file that cannot be read or decoded, or holds no touches, changes nothing. Otherwise its touches become the recorded ones and the file is ready for playback; the canvas touches and running time are kept |
| Recorder.LoadedRecordingPlays | Haptica/HapticRecorder.swift:282-295 | Playing a loaded recording plays that file, and stopping returns to it with the loaded touches |
| RecorderTrace.KnownUrlsGrow | Haptica/HapticRecorder.swift:282-375 | Later actions never forget a saved or loaded URL. A successful save or load adds its URL |
| RecorderTrace.ApplyKeepsReachable | Haptica/HapticRecorder.swift:263-392 | No action, loading included, leaves the recorder loading, or offering a recording that was neither saved nor loaded |
| RecorderTrace.RunIsReachable | Haptica/HapticRecorder.swift:263-392 | Every run from the initial state is never loading between actions. Any URL it offers or plays was saved by one of its stopRecording actions or loaded by one of its loadRecording actions |
| RecorderTrace.NothingStoredNothingToPlay | Haptica/HapticRecorder.swift:282-392 | A run that neither saved nor loaded a recording can never be ready for playback or playing |
| SequenceExtensions.RemoveAllOccurrences | Haptica/HapticRecorder.swift:518-522 | No copy of e remains. Every other element keeps its multiplicity, and the length drops by e's count |
| SequenceExtensions.RemoveAllOccurrencesDistributes | Haptica/HapticRecorder.swift:518-522 | Removal works piecewise on a concatenation, so the survivors keep their order |
| SequenceExtensions.RemoveAbsentIsIdentity | Haptica/HapticRecorder.swift:518-522 | Removing an element that does not occur changes nothing |
| SequenceExtensions.Accumulate | Haptica/HapticRecorder.swift:504-509 | The `reduce(into:)` body never introduces a duplicate. It keeps the partial result as a prefix and collects exactly the elements seen |
| SequenceExtensions.DuplicatesRemoved | Haptica/HapticRecorder.swift:503-510 | The output has no duplicates and the same elements as the input, and is no longer than the input |
| SequenceExtensions.DuplicatesRemovedKeepsFirstOccurrences | Haptica/HapticRecorder.swift:503-510 | The output equals an independent definition: the first occurrence of each element, in input order |
| SequenceExtensions.DuplicatesRemovedOfDistinct | Haptica/HapticRecorder.swift:503-510 | A sequence without duplicates comes back unchanged |
| SequenceExtensions.DuplicatesRemovedIdempotent | Haptica/HapticRecorder.swift:503-516 | Calling `removeDuplicates()` twice is the same as calling it once |
| SequenceExtensions.DuplicatesRemovedAppend | Haptica/HapticRecorder.swift:503-510 | Appending x to the input appends x to the output iff x is new |
| Haptic.WarningEvents | Haptica/Haptic.swift:119-131 | No events when duration ≤ 0. Otherwise times are 0, 0.1, 0.2, … up to but not including the duration, strictly increasing. Each value is (1 − t/duration)·clamp(magnitude), lies in [0, 1], is shared by intensity and sharpness, and never increases |
| Haptic.WarningValueNonIncreasing | Haptica/Haptic.swift:126 | A later time never gives a larger warning value |
| Haptic.WarningValueBounds | Haptica/Haptic.swift:126 | Before the end of the duration the warning value lies in [0, 1] |
| Haptic.RollAwayEvents | Haptica/Haptic.swift:142-158 | The loop terminates for every (finite, real) duration. There are no events iff duration ≤ 0.1. The first event is at 0, and each remaining time is the previous one divided by 1.3. The loop stops at the first remaining time ≤ 0.1. Times lie in [0, duration) and strictly increase. Intensity = sharpness = clamp(remaining·magnitude) ∈ [0, 1], and attack time is half that |
| Haptic.RollAwayEventFacts | Haptica/Haptic.swift:151-155 | One roll-away event is placed at duration − remaining and has intensity = sharpness = clamp(remaining·magnitude) ∈ [0, 1], attack half of it |
| Haptic.LevelChangeValue | Haptica/Haptic.swift:194 | The level-change parameter lies in [0.2, 0.9]. It is 0.2 for levels ≤ 0 and 0.9 for levels ≥ 1 |
| Haptic.LevelChangeEvents | Haptica/Haptic.swift:194-197 | A single event at time 0, with the level-change value as both intensity and sharpness |
| Haptic.LevelChangeMonotone | Haptica/Haptic.swift:194 | A higher level never gives a weaker event |
| Haptic.LevelChangeRecoversLevel | Haptica/Haptic.swift:194 | Inside [0, 1] the level can be recovered from the value |
| Haptic.TicksEvents | Haptica/Haptic.swift:225-236 | One event per tick, in order. Intensity and sharpness are clamped into [0, 1], and the relative time is copied unchanged |
| Haptic.TicksEventsAppend | Haptica/Haptic.swift:231-236 | The events of concatenated tick lists are the concatenated events |
| Haptic.TicksInRangeUnchanged | Haptica/Haptic.swift:231-236 | Ticks already inside [0, 1] reach the engine unchanged |
| Comparable.Between | Haptica/Extensions/Comparable+Extension.swift:15-17 | `between` only passes when lhs ≤ rhs, and then it accepts exactly the values that clamping into [lhs, rhs] leaves unchanged |
| Comparable.Clamped | Haptica/Extensions/Comparable+Extension.swift:11-13 | For lo ≤ hi the result lies in [lo, hi]. Values inside are returned unchanged, values below give lo, and values above give hi |
| Comparable.UnitClamped | Haptica/Extensions/Comparable+Extension.swift:11-13 | `clamped(to: 0...1)` lies in [0, 1], keeps values already inside, and sends values below to 0 and above to 1 |
| Comparable.BetweenReversedIsEmpty | Haptica/Extensions/Comparable+Extension.swift:15-17 | `between` is false whenever lhs > rhs |
| Comparable.ClampedIsBetween | Haptica/Extensions/Comparable+Extension.swift:11-17 | A clamped value always passes `between(lhs: lo, rhs: hi)` |
| Comparable.ClampedFixedPointsAreBetween | Haptica/Extensions/Comparable+Extension.swift:11-17 | Clamping leaves x unchanged iff x is between lo and hi |
| Comparable.ClampedIdempotent | Haptica/Extensions/Comparable+Extension.swift:11-13 | Clamping twice is the same as clamping once |
| Comparable.ClampedMonotone | Haptica/Extensions/Comparable+Extension.swift:11-13 | Clamping preserves order |
| DictionaryExtension.ToDictionary | Haptica/Extensions/Dictionary+Extension.swift:21-23 | Given pairs with distinct keys: every pair is in the dictionary with its value, every key comes from a pair, and the size equals the number of pairs |
| DictionaryExtension.TransformedPairs | Haptica/Extensions/Dictionary+Extension.swift:11-16 | On success, one pair (transformed key, value) per key, in iteration order. On failure, the error is the one thrown for the first failing key |
| DictionaryExtension.MapKeys | Haptica/Extensions/Dictionary+Extension.swift:11-17 | It throws iff the transform throws for some key, with that first key's error. Otherwise every key's value moves to its transformed key, every new key is a transformed old key, and the size is preserved |
| DictionaryExtension.MapKeysOrderIrrelevant | Haptica/Extensions/Dictionary+Extension.swift:11-17 | When nothing throws, the result does not depend on the iteration order |
| DictionaryExtension.MapKeysInverse | Haptica/Extensions/Dictionary+Extension.swift:11-17 | Re-keying by a transform and then by its inverse gives back the original dictionary |
| NearbyPeers.RawValue | Haptica/Services/Connectivity/NearbyPeer.swift:20-23 | The raw value has exactly the keys "device" and "chatName", holding the two fields |
| NearbyPeers.FromRawValue | Haptica/Services/Connectivity/NearbyPeer.swift:30-35 | Decoding fails iff "device" or "chatName" is missing. Otherwise the fields are read from those keys |
| NearbyPeers.RawValueRoundTrip | Haptica/Services/Connectivity/NearbyPeer.swift:20-35 | Decoding an encoded record gives the record back |
| NearbyPeers.FromRawValueRoundTrip | Haptica/Services/Connectivity/NearbyPeer.swift:20-35 | Encoding a decoded record gives back the two relevant keys of the original dictionary |
| NearbyPeers.FromRawValueIgnoresExtraKeys | Haptica/Services/Connectivity/NearbyPeer.swift:30-35 | Keys other than the two make no difference |
| NearbyPeers.NearbyPeer.Id | Haptica/Services/Connectivity/NearbyPeer.swift:15 | A nearby peer's identity is its peer ID |
| NearbyPeers.SameIdIffSamePeer | Haptica/Services/Connectivity/NearbyPeer.swift:11-15 | Two nearby peers have the same id iff they have the same peer ID; the discovery info never changes the id |
| NearbyPeers.FromDictionary | Haptica/Services/Connectivity/NearbyPeer.swift:43-51 | The peer's id is the given peer ID. Without a dictionary there is no info; with one, the info is its decoding, which may be nil |
| NearbyPeers.MakeAdvertiser | Haptica/Services/Connectivity/NearbyPeer.swift:53-55 | The advertiser advertises the peer, and publishes the raw info iff the peer has info |
| NearbyPeers.AdvertisedPeerIsDiscovered | Haptica/Services/Connectivity/NearbyPeer.swift:43-55 | A browser rebuilds exactly the peer that is being advertised |
| Connectivity.IsConnected | Haptica/Services/Connectivity/ConnectivityManager.swift:39-41 | The manager is connected iff some peer is connected |
| Connectivity.DisplayName | Haptica/Services/Connectivity/ConnectivityManager.swift:35-37 | The display name is present iff there is a peer ID, and is that peer ID's name |
| Connectivity.ChatName | Haptica/Services/Connectivity/ConnectivityManager.swift:31-33 | Needs an advertiser. The chat name is present iff the advertiser publishes info with a "chatName" key, and is then the value under that key |
| Connectivity.WithoutPeers | Haptica/Services/Connectivity/ConnectivityManager.swift:199-202 | No survivor has an ID in the list. Every survivor was nearby, and every nearby entry whose ID is not in the list survives |
| Connectivity.WithoutPeersDistributes | Haptica/Services/Connectivity/ConnectivityManager.swift:199-202 | Filtering works piecewise on a concatenation, so survivors keep their order |
| Connectivity.StartBrowsing | Haptica/Services/Connectivity/ConnectivityManager.swift:47-52 | Needs a browser. Nearby peers are emptied and the last peer event is cleared. Nothing else changes |
| Connectivity.StopBrowsing | Haptica/Services/Connectivity/ConnectivityManager.swift:54-59 | The bookkeeping is the same as for starting |
| Connectivity.StartAdvertising | Haptica/Services/Connectivity/ConnectivityManager.swift:61-74 | The invitation, hasInvitation and the peer event are cleared, and the manager becomes discoverable. With a chat name, a new advertiser for `peerID!` publishes the device name and that chat name. Without one, the existing advertiser is reused |
| Connectivity.AdvertisingIsDiscovered | Haptica/Services/Connectivity/ConnectivityManager.swift:61-74 | A browser decoding the new advertiser rebuilds this manager's peer with `UIDevice.current.name` as device and the given chat name |
| Connectivity.StopAdvertising | Haptica/Services/Connectivity/ConnectivityManager.swift:76-83 | Needs an advertiser. The invitation, hasInvitation and the peer event are cleared, and the manager stops being discoverable |
| Connectivity.DisconnectSession | Haptica/Services/Connectivity/ConnectivityManager.swift:85-88 | Needs a session. Afterwards the manager is not connected |
| Connectivity.InitializeSession | Haptica/Services/Connectivity/ConnectivityManager.swift:90-106 | A new peer ID with the display name. A session, a browser, and an advertiser for that peer publishing the device name and an empty chat name are created, and the manager is marked initialised |
| Connectivity.InitializedSessionIsDiscovered | Haptica/Services/Connectivity/ConnectivityManager.swift:90-106 | A browser decoding the new advertiser rebuilds the new peer with `UIDevice.current.name` as device and an empty chat name |
| Connectivity.InitializeSessionIfNonexistent | Haptica/Services/Connectivity/ConnectivityManager.swift:108-111 | A no-op when a session exists. Otherwise it initialises a session |
| Connectivity.TerminateSessionAndDiscovery | Haptica/Services/Connectivity/ConnectivityManager.swift:113-128 | As written: needs an advertiser, a browser and a session. It leaves nothing connected, nearby, pending or published, no handlers, and no session, browser, advertiser or peer ID |
| Connectivity.TerminateTwiceTraps | Haptica/Services/Connectivity/ConnectivityManager.swift:113-128 | After a terminate, another terminate (as `deinit` does) would force-unwrap an absent object |
| Connectivity.TerminateFreshManagerTraps | Haptica/Services/Connectivity/ConnectivityManager.swift:24-26 | A manager that was never initialised cannot be terminated without a trap |
| Connectivity.TerminateSafely | Haptica/Services/Connectivity/ConnectivityManager.swift:113-128 | Corrected: the same terminated state from any manager. It agrees with the as-written version whenever that one does not trap |
| Connectivity.TerminateSafelyIdempotent | Haptica/Services/Connectivity/ConnectivityManager.swift:113-128 | Terminating twice is the same as terminating once |
| Connectivity.ResetSession | Haptica/Services/Connectivity/ConnectivityManager.swift:173-176 | As written: needs what terminating needs. The result has a fresh session, browser and peer ID, and an advertiser for that peer publishing an empty chat name. Nothing is connected, nearby, pending, flagged or registered, there is no peer event, and the manager is not discoverable |
| Connectivity.ResetSessionSafely | Haptica/Services/Connectivity/ConnectivityManager.swift:173-176 | Corrected: the same fresh session from any manager. It agrees with the as-written version whenever that one does not trap |
| Connectivity.RegisterDataHandler | Haptica/Services/Connectivity/ConnectivityManager.swift:130-137 | Exactly one more handler is registered, and nothing else changes |
| Connectivity.SessionDidChange | Haptica/Services/Connectivity/ConnectivityManager.swift:195-204 | connectedPeers becomes the session's list. No remaining nearby peer is connected, and the survivors keep their order. The event records (peer, state) |
| Connectivity.FoundPeer | Haptica/Services/Connectivity/ConnectivityManager.swift:243-251 | The peer is appended at the end iff it is not connected. Existing nearby entries are not de-duplicated |
| Connectivity.LostPeer | Haptica/Services/Connectivity/ConnectivityManager.swift:254-262 | The nearby list becomes its filter by that ID: every entry with the ID is removed, every other entry is kept, and with `WithoutPeers` and `WithoutPeersDistributes` the survivors keep their order and multiplicity. Nothing else changes |
| Connectivity.LostUnknownPeer | Haptica/Services/Connectivity/ConnectivityManager.swift:254-262 | Losing a peer that is not nearby changes nothing |
| Connectivity.FoundThenLost | Haptica/Services/Connectivity/ConnectivityManager.swift:243-262 | Finding a peer that was not nearby and then losing it restores the state |
| Connectivity.ReceiveInvitation | Haptica/Services/Connectivity/ConnectivityManager.swift:266-269 | The invitation is from that peer and hasInvitation is true. Nothing else changes |
| Connectivity.DismissInvitation | Haptica/Views/FoundPeers.swift:80-95 | The toast clears hasInvitation and leaves the invitation as it was. Nothing else changes |
| Connectivity.DismissedInvitationStaysPending | Haptica/Views/FoundPeers.swift:80-95 | After a received invitation's toast is dismissed, hasInvitation is false but the invitation is still pending |
| ConnectivityTrace.Step | Haptica/Services/Connectivity/ConnectivityManager.swift:47-176 | A call traps exactly when it would force-unwrap an absent browser, advertiser, session or peer ID; terminating and resetting trap unless all three platform objects are present |
| ConnectivityTrace.TerminateBeforeInitializingTraps | Haptica/Services/Connectivity/ConnectivityManager.swift:76-176 | On a fresh manager, terminating and resetting trap, while initialising does not |
| ConnectivityTrace.InitialIsValid | Haptica/Services/Connectivity/ConnectivityManager.swift:14-27 | A fresh manager is consistent |
| ConnectivityTrace.StepPreservesValid | Haptica/Services/Connectivity/ConnectivityManager.swift:47-269 | Every non-trapping call keeps several facts true. The session, browser, advertiser and peer ID are present together. No connected peer is listed as nearby. hasInvitation is only true while an invitation is pending. The manager is discoverable only with an advertiser |
| ConnectivityTrace.RunPreservesValid | Haptica/Services/Connectivity/ConnectivityManager.swift:47-269 | The same facts hold after any run of calls that does not trap |
| ConnectivityTrace.InitializedEnablesEverything | Haptica/Services/Connectivity/ConnectivityManager.swift:90-106 | Once a session exists, no call traps |

## Left out

- CoreHaptics and UIKit. Engine lifecycle, players, feedback generators,
  the `play(_:)` dispatch, the impact, selection, alignment and single-tick
  haptics, and file playback are platform calls. Only the event lists are
  modelled.
- Files and JSON. `saveHapticToFile`, `populateRecordedPatterns`, the
  file read and JSON parsing inside `loadRecording`, `touchItems(for:)` and
  the pattern dictionaries are file I/O and platform serialisation. The
  save outcome is an input of `Recorder.StopRecording`, the decoded touches
  an input of `Recorder.LoadRecording`, and `recordedPatterns` and
  `isShowingRecordings` are not part of the state.
- Timers and Combine. The recording and playback timers, the running-time
  accumulation, the `recordingSubscriber`, and `update(withDate:)` (the
  time-based fading of touches) are left out. The timers and the
  subscriber therefore never fill `recordedTouchItems`; among the modelled
  operations only `Recorder.LoadRecording` makes it non-empty.
  `stopTimer` zeroes the running time on the main actor, and
  `loadRecording` applies its result in a `Task` on the main actor; the
  model applies both at once.
- Floating point. `Double`, `Float` and `Date` are `real`: no IEEE rounding,
  and the 0.1 stride and the division by 1.3 are exact. Infinity and NaN
  are not modelled: for an infinite duration the warning stride and the
  roll-away loop in Swift never end (infinity divided by 1.3 stays
  infinite), and NaN comparisons are not the real ones.
- Haptic.WarningEvents: the stride points are exact multiples of 0.1. Swift
  computes each point as 0 + i·0.1 in `Double`, so the number of events may
  differ when the rounding of i·0.1, or of the duration, moves a point
  across the duration.
- Recorder.PatternFromAsWritten: with no recorded touches, the source reads
  `.now` afresh for every item, so the items can be timed against slightly
  different instants; the model uses one `now` for all of them.
- Recorder.PatternFrom: `CHHapticPattern(events:parameters:)` can throw. The
  model returns the event list it is built from and does not model the
  error.
- ConnectivityManager transport: `send`, `openStream`, `closeStream`,
  `stream`, `invitePeer`, `acceptInvitation` and `declineInvitation`, the
  data and stream delegate callbacks, the JSON handlers, and the
  main-queue hop of the delegate callbacks. Each modelled callback is one
  atomic step. `selectedPeer` is never written by the core and is left out.
- `PeerInvitation` context decoding and the reply handler it carries are
  platform closures and JSON. The decoded context is an input.
- SwiftUI views, `Defaults`, `HapticPattern.swift` and the pattern library
  are UI or persistence.

## Findings

| source | as written | input that shows it | evidently intended | confidence | as-written member | corrected member |
|---|---|---|---|---|---|---|
| Haptica/Services/Connectivity/ConnectivityManager.swift:113-128 | `terminateSessionAndDiscovery()` calls `stopAdvertising()`, `stopBrowsing()` and `session.disconnect()` on implicitly unwrapped optionals, and then sets them to nil. `deinit` calls it again, and `resetSession` calls it first | Terminate a manager, then release it; or release, or reset, a manager that was never initialised | Terminating and resetting are safe on any manager, e.g. via optional chaining | medium, not executed | Connectivity.TerminateSessionAndDiscovery, Connectivity.TerminateTwiceTraps, Connectivity.TerminateFreshManagerTraps, Connectivity.ResetSession, ConnectivityTrace.TerminateBeforeInitializingTraps | Connectivity.TerminateSafely, Connectivity.TerminateSafelyIdempotent, Connectivity.ResetSessionSafely |
| Haptica/HapticRecorder.swift:445-462 | `pattern(from:)` times the events of its argument against the earliest of `recordedTouchItems`, not of the argument | Recorded touch at date 5; `pattern(from:)` given a touch at date 3: relative time −2 | Times measured from the earliest of the argument's own touches, so that none is negative | low (the function is private and unused), not executed | Recorder.PatternFromAsWritten, Recorder.PatternFromAsWrittenCanBeNegative | Recorder.PatternFrom, Recorder.PatternFromAgreesOnRecorded |

=== FILE: comparable.dfy ===
/** The two order helpers the app adds to `Comparable`
    (Haptica/Extensions/Comparable+Extension.swift). Every use in the app is
    on `Double` or `Float`, so they are stated here over `real`. */
module Comparable {

  /** `x.clamped(to: lo...hi)`, written in the source as `min(max(lo, x), hi)`.
      Forming the range `lo...hi` traps unless `lo <= hi`, hence the precondition. */
  function Clamped(x: real, lo: real, hi: real): (r: real)
    requires lo <= hi
    ensures lo <= r <= hi
    ensures lo <= x <= hi ==> r == x
    ensures x < lo ==> r == lo
    ensures hi < x ==> r == hi
  {
    var atLeastLo := if lo <= x then x else lo;
    if atLeastLo < hi then atLeastLo else hi
  }

  /** `x.between(lhs: lhs, rhs: rhs)`: the closed interval test. It only
      ever passes for ordered bounds, and then it accepts exactly the values
      that clamping into those bounds leaves alone. */
  function Between(x: real, lhs: real, rhs: real): (b: bool)
    ensures b ==> lhs <= rhs
    ensures lhs <= rhs ==> (b <==> Clamped(x, lhs, rhs) == x)
  {
    lhs <= x && x <= rhs
  }

  /** With the bounds the wrong way round no value lies between them. */
  lemma BetweenReversedIsEmpty(x: real, lhs: real, rhs: real)
    requires rhs < lhs
    ensures !Between(x, lhs, rhs)
  {
  }

  /** A clamped value always passes the matching `between` test. */
  lemma ClampedIsBetween(x: real, lo: real, hi: real)
    requires lo <= hi
    ensures Between(Clamped(x, lo, hi), lo, hi)
  {
  }

  /** The values `clamped` leaves alone are exactly those `between` accepts. */
  lemma ClampedFixedPointsAreBetween(x: real, lo: real, hi: real)
    requires lo <= hi
    ensures Clamped(x, lo, hi) == x <==> Between(x, lo, hi)
  {
  }

  /** Clamping twice is clamping once. */
  lemma ClampedIdempotent(x: real, lo: real, hi: real)
    requires lo <= hi
    ensures Clamped(Clamped(x, lo, hi), lo, hi) == Clamped(x, lo, hi)
  {
  }

  /** Clamping preserves the order of its inputs. */
  lemma ClampedMonotone(x: real, y: real, lo: real, hi: real)
    requires lo <= hi
    requires x <= y
    ensures Clamped(x, lo, hi) <= Clamped(y, lo, hi)
  {
  }

  /** The unit-interval clamp `clamped(to: 0...1)` used by every haptic parameter. */
  function UnitClamped(x: real): (r: real)
    ensures 0.0 <= r <= 1.0
    ensures 0.0 <= x <= 1.0 ==> r == x
    ensures x < 0.0 ==> r == 0.0
    ensures x > 1.0 ==> r == 1.0
  {
    Clamped(x, 0.0, 1.0)
  }
}

=== FILE: connectivity_manager.dfy ===
/** The peer bookkeeping of `ConnectivityManager`
    (Haptica/Services/Connectivity/ConnectivityManager.swift).

    Each public method and each delegate callback is one atomic step on an
    immutable `Manager` record; the main-queue hop the delegate callbacks go
    through is not modelled. The platform objects (session, browser,
    advertiser) are reduced to whether they are present and, for the
    advertiser, the discovery info it publishes. The source holds them in
    implicitly unwrapped optionals, so a method that calls into one of them
    traps when it is absent: that is what the `requires` clauses below say. */
module Connectivity {
  import opened Wrappers
  import opened NearbyPeers

  /** `MCSessionState` */
  datatype SessionState = NotConnected | Connecting | Connected

  /** `PeerEvent`: which peer changed state, and to what. */
  datatype PeerEvent = PeerEvent(peerID: PeerId, state: SessionState)

  /** The decoded context of an invitation (`PeerInvitation.Context`). */
  datatype InvitationContext = InvitationContext(message: Option<string>, device: string)

  /** A pending invitation. The reply handler it carries is a platform
      closure and is not modelled. */
  datatype PeerInvitation = PeerInvitation(peerID: PeerId, context: Option<InvitationContext>)

  datatype Manager = Manager(
    peerID: Option<PeerId>,
    connectedPeers: seq<PeerId>,
    nearbyPeers: seq<NearbyPeer>,
    peerDidChangeState: Option<PeerEvent>,
    invitation: Option<PeerInvitation>,
    hasInvitation: bool,
    discoverable: bool,
    isInitialized: bool,
    hasSession: bool,
    hasBrowser: bool,
    advertiser: Option<Advertiser>,
    dataHandlers: nat)

  /** A freshly created manager: every published property at its initial value. */
  const Initial: Manager :=
    Manager(None, [], [], None, None, false, false, false, false, false, None, 0)

  /** `isConnected`: some peer is connected. */
  function IsConnected(m: Manager): (connected: bool)
    ensures connected <==> exists p :: p in m.connectedPeers
  {
    if m.connectedPeers == [] then false
    else assert m.connectedPeers[0] in m.connectedPeers; true
  }

  /** `displayName`: the name of the current peer ID, if there is one. */
  function DisplayName(m: Manager): (r: Option<string>)
    ensures r.Some? <==> m.peerID.Some?
    ensures r.Some? ==> r.value == m.peerID.value.displayName
  {
    match m.peerID
    case None => None
    case Some(p) => Some(p.displayName)
  }

  /** `chatName`: the chat name the current advertiser publishes. */
  function ChatName(m: Manager): (r: Option<string>)
    requires m.advertiser.Some?
    ensures r.Some? <==> m.advertiser.value.discoveryInfo.Some? && ChatNameKey in m.advertiser.value.discoveryInfo.value
    ensures r.Some? ==> r.value == m.advertiser.value.discoveryInfo.value[ChatNameKey]
  {
    match m.advertiser.value.discoveryInfo
    case None => None
    case Some(raw) => if ChatNameKey in raw then Some(raw[ChatNameKey]) else None
  }

  /** The nearby entries whose peer is not in `ids`, in their original order
      (`filter { peer in ids.allSatisfy { $0 != peer.peerID } }`). */
  function WithoutPeers(nearby: seq<NearbyPeer>, ids: seq<PeerId>): (r: seq<NearbyPeer>)
    ensures forall i :: 0 <= i < |r| ==> r[i].peerID !in ids
    ensures forall p <- r :: p in nearby
    ensures forall p <- nearby :: p.peerID !in ids ==> p in r
    ensures |r| <= |nearby|
  {
    if nearby == [] then []
    else (if nearby[0].peerID in ids then [] else [nearby[0]]) + WithoutPeers(nearby[1..], ids)
  }

  /** Filtering works piecewise on a concatenation: survivors keep their order. */
  lemma {:induction false} WithoutPeersDistributes(a: seq<NearbyPeer>, b: seq<NearbyPeer>, ids: seq<PeerId>)
    ensures WithoutPeers(a + b, ids) == WithoutPeers(a, ids) + WithoutPeers(b, ids)
  {
    if a == [] {
      assert a + b == b;
    } else {
      assert (a + b)[0] == a[0];
      assert (a + b)[1..] == a[1..] + b;
      WithoutPeersDistributes(a[1..], b, ids);
    }
  }

  /** A list none of whose peers is in `ids` passes through unchanged. */
  lemma {:induction false} WithoutAbsentPeers(nearby: seq<NearbyPeer>, ids: seq<PeerId>)
    requires forall i :: 0 <= i < |nearby| ==> nearby[i].peerID !in ids
    ensures WithoutPeers(nearby, ids) == nearby
  {
    if nearby != [] {
      WithoutAbsentPeers(nearby[1..], ids);
    }
  }

  /** `startBrowsing()` */
  function StartBrowsing(m: Manager): (r: Manager)
    requires m.hasBrowser
    ensures r.nearbyPeers == [] && r.peerDidChangeState == None
    ensures r == m.(nearbyPeers := r.nearbyPeers, peerDidChangeState := r.peerDidChangeState)
  {
    m.(nearbyPeers := [], peerDidChangeState := None)
  }

  /** `stopBrowsing()`: the same bookkeeping as starting. */
  function StopBrowsing(m: Manager): (r: Manager)
    requires m.hasBrowser
    ensures r == StartBrowsing(m)
  {
    m.(nearbyPeers := [], peerDidChangeState := None)
  }

  /** `startAdvertising(withChatName:)`. With a chat name, a new advertiser
      is made for `peerID!` publishing this device's name and the chat name;
      without one the current advertiser is reused. `device` is the
      platform's device name. */
  function StartAdvertising(m: Manager, chatName: Option<string>, device: string): (r: Manager)
    requires chatName.Some? ==> m.peerID.Some?
    requires chatName.None? ==> m.advertiser.Some?
    ensures r.discoverable && r.invitation == None && !r.hasInvitation && r.peerDidChangeState == None
    ensures r.advertiser.Some?
    ensures chatName.Some? ==> ChatName(r) == chatName && r.advertiser.value.peer == m.peerID.value
    ensures chatName.Some? ==>
              r.advertiser == Some(MakeAdvertiser(NearbyPeer(m.peerID.value, Some(DiscoveryInfo(device, chatName.value)))))
    ensures chatName.None? ==> r.advertiser == m.advertiser
    ensures r == m.(invitation := r.invitation, hasInvitation := r.hasInvitation,
                    peerDidChangeState := r.peerDidChangeState, advertiser := r.advertiser,
                    discoverable := r.discoverable)
  {
    var advertiser :=
      match chatName
      case Some(name) => MakeAdvertiser(NearbyPeer(m.peerID.value, Some(DiscoveryInfo(device, name))))
      case None => m.advertiser.value;
    m.(invitation := None, hasInvitation := false, peerDidChangeState := None,
       advertiser := Some(advertiser), discoverable := true)
  }

  /** `stopAdvertising()` */
  function StopAdvertising(m: Manager): (r: Manager)
    requires m.advertiser.Some?
    ensures !r.discoverable && r.invitation == None && !r.hasInvitation && r.peerDidChangeState == None
    ensures r == m.(invitation := r.invitation, hasInvitation := r.hasInvitation,
                    peerDidChangeState := r.peerDidChangeState, discoverable := r.discoverable)
  {
    m.(invitation := None, hasInvitation := false, peerDidChangeState := None, discoverable := false)
  }

  /** `disconnectSession()` */
  function DisconnectSession(m: Manager): (r: Manager)
    requires m.hasSession
    ensures !IsConnected(r)
    ensures r == m.(connectedPeers := r.connectedPeers)
  {
    m.(connectedPeers := [])
  }

  /** `initializeSession(withDisplayName:)`. `handle` is the identity of the
      new `MCPeerID`; the advertiser publishes `device` with an empty chat
      name. Lists, flags and handlers are left as they were. */
  function InitializeSession(m: Manager, name: string, handle: nat, device: string): (r: Manager)
    ensures r.peerID == Some(PeerId(handle, name)) && DisplayName(r) == Some(name)
    ensures r.hasSession && r.hasBrowser && r.isInitialized
    ensures r.advertiser.Some? && r.advertiser.value.peer == r.peerID.value && ChatName(r) == Some("")
    ensures r.advertiser == Some(MakeAdvertiser(NearbyPeer(PeerId(handle, name), Some(DiscoveryInfo(device, "")))))
    ensures r == m.(peerID := r.peerID, hasSession := true, hasBrowser := true,
                    advertiser := r.advertiser, isInitialized := true)
  {
    var peer := PeerId(handle, name);
    var advertiser := MakeAdvertiser(NearbyPeer(peer, Some(DiscoveryInfo(device, ""))));
    m.(peerID := Some(peer), hasSession := true, hasBrowser := true,
       advertiser := Some(advertiser), isInitialized := true)
  }

  /** A browser near a manager that starts advertising under a chat name
      discovers this manager's peer, with this device's name and that chat
      name. */
  lemma AdvertisingIsDiscovered(m: Manager, chatName: string, device: string)
    requires m.peerID.Some?
    ensures var a := StartAdvertising(m, Some(chatName), device).advertiser.value;
            FromDictionary(a.peer, a.discoveryInfo) == NearbyPeer(m.peerID.value, Some(DiscoveryInfo(device, chatName)))
  {
    AdvertisedPeerIsDiscovered(NearbyPeer(m.peerID.value, Some(DiscoveryInfo(device, chatName))));
  }

  /** After initialising, a browser discovers the new peer with this
      device's name and an empty chat name. */
  lemma InitializedSessionIsDiscovered(m: Manager, name: string, handle: nat, device: string)
    ensures var a := InitializeSession(m, name, handle, device).advertiser.value;
            FromDictionary(a.peer, a.discoveryInfo) == NearbyPeer(PeerId(handle, name), Some(DiscoveryInfo(device, "")))
  {
    AdvertisedPeerIsDiscovered(NearbyPeer(PeerId(handle, name), Some(DiscoveryInfo(device, ""))));
  }

  /** `initializeSessionIfNonexistent(withDisplayName:)` */
  function InitializeSessionIfNonexistent(m: Manager, name: string, handle: nat, device: string): (r: Manager)
    ensures m.hasSession ==> r == m
    ensures !m.hasSession ==> r == InitializeSession(m, name, handle, device)
  {
    if m.hasSession then m else InitializeSession(m, name, handle, device)
  }

  /** Everything `terminateSessionAndDiscovery()` force-unwraps is present. */
  predicate CanTerminate(m: Manager) {
    m.advertiser.Some? && m.hasBrowser && m.hasSession
  }

  /** The state `terminateSessionAndDiscovery()` leaves behind: nothing
      connected, nearby, pending or published, no platform objects. It does
      not reset `isInitialized`. */
  predicate IsTerminated(m: Manager) {
    && m.peerID == None && m.connectedPeers == [] && m.nearbyPeers == []
    && m.peerDidChangeState == None && m.invitation == None && !m.hasInvitation
    && !m.discoverable && !m.hasSession && !m.hasBrowser && m.advertiser == None
    && m.dataHandlers == 0
  }

  /** `terminateSessionAndDiscovery()` as written: it first calls
      `stopAdvertising()` and `stopBrowsing()` and then `session.disconnect()`,
      each of which traps when its object is absent. */
  function TerminateSessionAndDiscovery(m: Manager): (r: Manager)
    requires CanTerminate(m)
    ensures IsTerminated(r) && !IsConnected(r)
    ensures r.isInitialized == m.isInitialized
  {
    var stopped := StopBrowsing(StopAdvertising(m));
    stopped.(discoverable := false, connectedPeers := [], nearbyPeers := [], invitation := None,
             hasInvitation := false, dataHandlers := 0, peerDidChangeState := None,
             advertiser := None, hasBrowser := false, hasSession := false, peerID := None)
  }

  /** `deinit` calls `terminateSessionAndDiscovery()`; after an explicit
      terminate it can no longer run without trapping. */
  lemma TerminateTwiceTraps(m: Manager)
    requires CanTerminate(m)
    ensures !CanTerminate(TerminateSessionAndDiscovery(m))
  {
  }

  /** Nor can it on a manager that was never initialised. */
  lemma TerminateFreshManagerTraps()
    ensures !CanTerminate(Initial)
  {
  }

  /** `terminateSessionAndDiscovery()` with optional chaining on the three
      platform objects, so that it never traps. */
  function TerminateSafely(m: Manager): (r: Manager)
    ensures IsTerminated(r) && !IsConnected(r)
    ensures r.isInitialized == m.isInitialized
    ensures CanTerminate(m) ==> r == TerminateSessionAndDiscovery(m)
  {
    m.(discoverable := false, connectedPeers := [], nearbyPeers := [], invitation := None,
       hasInvitation := false, dataHandlers := 0, peerDidChangeState := None,
       advertiser := None, hasBrowser := false, hasSession := false, peerID := None)
  }

  /** Terminating twice is terminating once. */
  lemma TerminateSafelyIdempotent(m: Manager)
    ensures TerminateSafely(TerminateSafely(m)) == TerminateSafely(m)
  {
  }

  /** What `resetSession(andInitializeWithDisplayName:)` leaves behind: a
      fresh session, browser and advertiser for the new peer, and nothing
      connected, nearby, pending or registered. */
  predicate IsFreshSession(r: Manager, name: string, handle: nat) {
    && r.connectedPeers == [] && r.nearbyPeers == [] && r.invitation == None && !r.hasInvitation
    && r.peerDidChangeState == None && r.dataHandlers == 0 && !r.discoverable
    && r.peerID == Some(PeerId(handle, name)) && r.hasSession && r.hasBrowser && r.isInitialized
    && r.advertiser.Some? && r.advertiser.value.peer == PeerId(handle, name) && ChatName(r) == Some("")
  }

  /** `resetSession(andInitializeWithDisplayName:)` as written: it goes
      through `terminateSessionAndDiscovery()` and so traps where that does. */
  function ResetSession(m: Manager, name: string, handle: nat, device: string): (r: Manager)
    requires CanTerminate(m)
    ensures IsFreshSession(r, name, handle)
    ensures CanTerminate(r)
  {
    InitializeSession(TerminateSessionAndDiscovery(m), name, handle, device)
  }

  /** `resetSession(andInitializeWithDisplayName:)` on the corrected
      terminate: it never traps, and agrees with the original wherever that
      one does not trap. */
  function ResetSessionSafely(m: Manager, name: string, handle: nat, device: string): (r: Manager)
    ensures IsFreshSession(r, name, handle)
    ensures CanTerminate(m) ==> r == ResetSession(m, name, handle, device)
  {
    InitializeSession(TerminateSafely(m), name, handle, device)
  }

  /** `on(_:perform:)` registers one more data handler; decoding is not modelled. */
  function RegisterDataHandler(m: Manager): (r: Manager)
    ensures r.dataHandlers == m.dataHandlers + 1
    ensures r == m.(dataHandlers := r.dataHandlers)
  {
    m.(dataHandlers := m.dataHandlers + 1)
  }

  /** `session(_:peer:didChange:)`: adopt the session's peer list, drop every
      nearby entry that is now connected, and record the event. */
  function SessionDidChange(m: Manager, sessionPeers: seq<PeerId>, peer: PeerId, state: SessionState): (r: Manager)
    ensures r.connectedPeers == sessionPeers
    ensures forall i :: 0 <= i < |r.nearbyPeers| ==> r.nearbyPeers[i].peerID !in r.connectedPeers
    ensures r.nearbyPeers == WithoutPeers(m.nearbyPeers, sessionPeers)
    ensures r.peerDidChangeState == Some(PeerEvent(peer, state))
    ensures r == m.(connectedPeers := r.connectedPeers, nearbyPeers := r.nearbyPeers,
                    peerDidChangeState := r.peerDidChangeState)
  {
    m.(connectedPeers := sessionPeers,
       nearbyPeers := WithoutPeers(m.nearbyPeers, sessionPeers),
       peerDidChangeState := Some(PeerEvent(peer, state)))
  }

  /** `browser(_:foundPeer:withDiscoveryInfo:)`: append the peer unless it is
      already connected. Entries already nearby are not de-duplicated. */
  function FoundPeer(m: Manager, id: PeerId, info: Option<RawInfo>): (r: Manager)
    ensures id !in m.connectedPeers ==> r.nearbyPeers == m.nearbyPeers + [FromDictionary(id, info)]
    ensures id in m.connectedPeers ==> r.nearbyPeers == m.nearbyPeers
    ensures r == m.(nearbyPeers := r.nearbyPeers)
  {
    if id !in m.connectedPeers then m.(nearbyPeers := m.nearbyPeers + [FromDictionary(id, info)]) else m
  }

  /** `browser(_:lostPeer:)`: drop every nearby entry for this peer. */
  function LostPeer(m: Manager, id: PeerId): (r: Manager)
    ensures forall i :: 0 <= i < |r.nearbyPeers| ==> r.nearbyPeers[i].peerID != id
    ensures forall p <- m.nearbyPeers :: p.peerID != id ==> p in r.nearbyPeers
    ensures r.nearbyPeers == WithoutPeers(m.nearbyPeers, [id])
    ensures r == m.(nearbyPeers := r.nearbyPeers)
  {
    m.(nearbyPeers := WithoutPeers(m.nearbyPeers, [id]))
  }

  /** Losing a peer that was never found changes nothing. */
  lemma LostUnknownPeer(m: Manager, id: PeerId)
    requires forall i :: 0 <= i < |m.nearbyPeers| ==> m.nearbyPeers[i].peerID != id
    ensures LostPeer(m, id) == m
  {
    WithoutAbsentPeers(m.nearbyPeers, [id]);
  }

  /** Finding a peer and then losing it restores the nearby list, provided it
      was not listed before. */
  lemma FoundThenLost(m: Manager, id: PeerId, info: Option<RawInfo>)
    requires forall i :: 0 <= i < |m.nearbyPeers| ==> m.nearbyPeers[i].peerID != id
    ensures LostPeer(FoundPeer(m, id, info), id) == m
  {
    WithoutAbsentPeers(m.nearbyPeers, [id]);
    if id !in m.connectedPeers {
      WithoutPeersDistributes(m.nearbyPeers, [FromDictionary(id, info)], [id]);
    }
  }

  /** `advertiser(_:didReceiveInvitationFromPeer:withContext:invitationHandler:)`.
      `context` is the already-decoded context (the JSON decoding is not modelled). */
  function ReceiveInvitation(m: Manager, id: PeerId, context: Option<InvitationContext>): (r: Manager)
    ensures r.invitation == Some(PeerInvitation(id, context)) && r.hasInvitation
    ensures r == m.(invitation := r.invitation, hasInvitation := true)
  {
    m.(invitation := Some(PeerInvitation(id, context)), hasInvitation := true)
  }

  /** The invitation toast's own write to the public `hasInvitation`: on
      Accept, on Decline and on dismissal it becomes false, while
      `invitation` stays as it was. */
  function DismissInvitation(m: Manager): (r: Manager)
    ensures !r.hasInvitation && r.invitation == m.invitation
    ensures r == m.(hasInvitation := false)
  {
    m.(hasInvitation := false)
  }

  /** A received invitation stays pending after its toast is dismissed. */
  lemma DismissedInvitationStaysPending(m: Manager, id: PeerId, context: Option<InvitationContext>)
    ensures var r := DismissInvitation(ReceiveInvitation(m, id, context));
            !r.hasInvitation && r.invitation == Some(PeerInvitation(id, context))
  {
  }
}

=== FILE: connectivity_trace.dfy ===
/** Runs of `ConnectivityManager`: any sequence of its methods and delegate
    callbacks, each applied atomically. A call that would force-unwrap an
    absent platform object traps, which ends the run. */
module ConnectivityTrace {
  import opened Wrappers
  import opened NearbyPeers
  import C = Connectivity

  datatype Call =
    | StartBrowsing
    | StopBrowsing
    | StartAdvertising(chatName: Option<string>, device: string)
    | StopAdvertising
    | DisconnectSession
    | InitializeSession(name: string, handle: nat, device: string)
    | InitializeSessionIfNonexistent(name: string, handle: nat, device: string)
    | TerminateSessionAndDiscovery
    | ResetSession(name: string, handle: nat, device: string)
    | RegisterDataHandler
    | SessionDidChange(sessionPeers: seq<PeerId>, peer: PeerId, state: C.SessionState)
    | FoundPeer(id: PeerId, info: Option<RawInfo>)
    | LostPeer(id: PeerId)
    | ReceiveInvitation(id: PeerId, context: Option<C.InvitationContext>)
    | DismissInvitation

  /** The call does not trap in this state. */
  predicate Enabled(m: C.Manager, call: Call) {
    match call
    case StartBrowsing => m.hasBrowser
    case StopBrowsing => m.hasBrowser
    case StartAdvertising(chatName, _) =>
      if chatName.Some? then m.peerID.Some? else m.advertiser.Some?
    case StopAdvertising => m.advertiser.Some?
    case DisconnectSession => m.hasSession
    case TerminateSessionAndDiscovery => C.CanTerminate(m)
    case ResetSession(_, _, _) => C.CanTerminate(m)
    case _ => true
  }

  /** One atomic step; `None` when the call traps. */
  function Step(m: C.Manager, call: Call): (r: Option<C.Manager>)
    ensures r.Some? <==> Enabled(m, call)
  {
    if !Enabled(m, call) then None
    else
      Some(match call
        case StartBrowsing => C.StartBrowsing(m)
        case StopBrowsing => C.StopBrowsing(m)
        case StartAdvertising(chatName, device) => C.StartAdvertising(m, chatName, device)
        case StopAdvertising => C.StopAdvertising(m)
        case DisconnectSession => C.DisconnectSession(m)
        case InitializeSession(name, handle, device) => C.InitializeSession(m, name, handle, device)
        case InitializeSessionIfNonexistent(name, handle, device) =>
          C.InitializeSessionIfNonexistent(m, name, handle, device)
        case TerminateSessionAndDiscovery => C.TerminateSessionAndDiscovery(m)
        case ResetSession(name, handle, device) => C.ResetSession(m, name, handle, device)
        case RegisterDataHandler => C.RegisterDataHandler(m)
        case SessionDidChange(sessionPeers, peer, state) => C.SessionDidChange(m, sessionPeers, peer, state)
        case FoundPeer(id, info) => C.FoundPeer(m, id, info)
        case LostPeer(id) => C.LostPeer(m, id)
        case ReceiveInvitation(id, context) => C.ReceiveInvitation(m, id, context)
        case DismissInvitation => C.DismissInvitation(m))
  }

  /** Apply the calls in order, stopping at the first trap. */
  function Run(m: C.Manager, calls: seq<Call>): Option<C.Manager>
    decreases |calls|
  {
    if calls == [] then Some(m)
    else
      match Step(m, calls[0])
      case None => None
      case Some(m') => Run(m', calls[1..])
  }

  /** What holds between any two calls:
      - the three platform objects and the peer ID come and go together;
      - a connected peer is never listed as nearby;
      - `hasInvitation` is only true while an invitation is pending (the
        toast clears the flag but leaves the invitation in place);
      - the manager is only discoverable while it has an advertiser. */
  predicate Valid(m: C.Manager) {
    && (m.hasSession <==> m.peerID.Some?)
    && (m.hasBrowser <==> m.hasSession)
    && (m.advertiser.Some? <==> m.hasSession)
    && (forall i :: 0 <= i < |m.nearbyPeers| ==> m.nearbyPeers[i].peerID !in m.connectedPeers)
    && (m.hasInvitation ==> m.invitation.Some?)
    && (m.discoverable ==> m.advertiser.Some?)
  }

  lemma InitialIsValid()
    ensures Valid(C.Initial)
  {
  }

  /** Every call that does not trap keeps the manager valid. */
  lemma StepPreservesValid(m: C.Manager, call: Call)
    requires Valid(m)
    requires Enabled(m, call)
    ensures Valid(Step(m, call).value)
  {
    match call
    case LostPeer(id) =>
      var r := C.LostPeer(m, id);
      forall i | 0 <= i < |r.nearbyPeers| ensures r.nearbyPeers[i].peerID !in r.connectedPeers {
        assert r.nearbyPeers[i] in m.nearbyPeers;
      }
    case _ =>
  }

  /** Every run that does not trap ends in a valid state. */
  lemma {:induction false} RunPreservesValid(m: C.Manager, calls: seq<Call>)
    requires Valid(m)
    requires Run(m, calls).Some?
    ensures Valid(Run(m, calls).value)
    decreases |calls|
  {
    if calls != [] {
      StepPreservesValid(m, calls[0]);
      RunPreservesValid(Step(m, calls[0]).value, calls[1..]);
    }
  }

  /** Before a session exists, terminating or resetting traps: it reaches
      `stopAdvertising()` with no advertiser. */
  lemma TerminateBeforeInitializingTraps(name: string, handle: nat, device: string)
    ensures Step(C.Initial, TerminateSessionAndDiscovery).None?
    ensures Step(C.Initial, ResetSession(name, handle, device)).None?
    ensures Step(C.Initial, InitializeSession(name, handle, device)).Some?
  {
  }

  /** In a valid state the only calls that trap are those made before a
      session exists, so initialising first makes every call safe. */
  lemma InitializedEnablesEverything(m: C.Manager, call: Call)
    requires Valid(m) && m.hasSession
    ensures Enabled(m, call)
  {
  }
}

=== FILE: dictionary_extension.dfy ===
/** `mapKeys` and `toDictionary` (Haptica/Extensions/Dictionary+Extension.swift).

    A Swift dictionary is a Dafny `map` together with the order in which it is
    iterated; that order is not under the program's control, so it is a
    parameter here. It only decides WHICH error escapes when the key
    transform throws for several keys. */
module DictionaryExtension {
  import opened Wrappers

  /** No key occurs twice in a list of pairs. */
  predicate DistinctKeys<K(==), V>(pairs: seq<(K, V)>) {
    forall i, j :: 0 <= i < j < |pairs| ==> pairs[i].0 != pairs[j].0
  }

  /** `order` lists every key of `m` exactly once. */
  predicate IsIterationOrder<K(==), V>(m: map<K, V>, order: seq<K>) {
    && (forall i :: 0 <= i < |order| ==> order[i] in m)
    && (forall k <- m.Keys :: k in order)
    && (forall i, j :: 0 <= i < j < |order| ==> order[i] != order[j])
  }

  /** The transform does not throw for any key. */
  predicate AllSucceed<K, V, T, E>(m: map<K, V>, transform: K -> Result<T, E>) {
    forall k <- m.Keys :: transform(k).Success?
  }

  /** No two keys are sent to the same new key (the keys the transform
      throws for are not compared). */
  predicate InjectiveOn<K(==), V, T(==), E>(m: map<K, V>, transform: K -> Result<T, E>) {
    forall k1 <- m.Keys, k2 <- m.Keys ::
      transform(k1).Success? && transform(k2).Success? && k1 != k2
      ==> transform(k1).value != transform(k2).value
  }

  /** `toDictionary()`, i.e. `Dictionary(uniqueKeysWithValues:)`, which traps
      on a repeated key. */
  function ToDictionary<K(==), V>(pairs: seq<(K, V)>): (d: map<K, V>)
    requires DistinctKeys(pairs)
    ensures forall k <- d.Keys :: exists i :: 0 <= i < |pairs| && pairs[i].0 == k
    ensures forall i :: 0 <= i < |pairs| ==> pairs[i].0 in d && d[pairs[i].0] == pairs[i].1
    ensures |d| == |pairs|
  {
    if pairs == [] then map[]
    else
      var init := pairs[..|pairs| - 1];
      var last := pairs[|pairs| - 1];
      assert forall i :: 0 <= i < |init| ==> init[i] == pairs[i];
      var d0 := ToDictionary(init);
      assert forall i :: 0 <= i < |init| ==> init[i].0 != last.0;
      assert last.0 !in d0;
      var d := d0[last.0 := last.1];
      assert forall k <- d.Keys :: exists i :: 0 <= i < |pairs| && pairs[i].0 == k by {
        forall k <- d.Keys
          ensures exists i :: 0 <= i < |pairs| && pairs[i].0 == k
        {
          if k == last.0 {
            assert pairs[|pairs| - 1].0 == k;
          } else {
            var i :| 0 <= i < |init| && init[i].0 == k;
            assert pairs[i].0 == k;
          }
        }
      }
      d
  }

  /** The `map { key, value in (try transform(key), value) }` step: the pairs
      in iteration order, or the first error thrown. */
  function TransformedPairs<K, V, T, E>(m: map<K, V>, order: seq<K>, transform: K -> Result<T, E>)
    : (r: Result<seq<(T, V)>, E>)
    requires forall i :: 0 <= i < |order| ==> order[i] in m
    ensures r.Success? ==> |r.value| == |order|
    ensures r.Success? ==> forall i :: 0 <= i < |order| ==>
              transform(order[i]).Success? && r.value[i] == (transform(order[i]).value, m[order[i]])
    ensures r.Failure? ==> exists i :: 0 <= i < |order| && transform(order[i]) == Failure(r.error)
                                    && forall j :: 0 <= j < i ==> transform(order[j]).Success?
  {
    if order == [] then Success([])
    else
      match transform(order[0])
      case Failure(e) => Failure(e)
      case Success(t) =>
        match TransformedPairs(m, order[1..], transform)
        case Failure(e) => Failure(e)
        case Success(rest) => Success([(t, m[order[0]])] + rest)
  }

  /** `mapKeys(transform)`: the same values under transformed keys. Swift
      traps unless the transform is injective on the keys whenever it
      succeeds for all of them; a thrown error is rethrown. */
  function MapKeys<K(==), V, T(==), E>(m: map<K, V>, order: seq<K>, transform: K -> Result<T, E>)
    : (r: Result<map<T, V>, E>)
    requires IsIterationOrder(m, order)
    requires AllSucceed(m, transform) ==> InjectiveOn(m, transform)
    ensures r.Failure? <==> !AllSucceed(m, transform)
    ensures r.Failure? ==> exists i :: 0 <= i < |order| && transform(order[i]) == Failure(r.error)
                                    && forall j :: 0 <= j < i ==> transform(order[j]).Success?
    ensures r.Success? ==> forall k <- m.Keys ::
              transform(k).Success? && transform(k).value in r.value && r.value[transform(k).value] == m[k]
    ensures r.Success? ==> forall t <- r.value.Keys :: exists k <- m.Keys :: transform(k) == Success(t)
    ensures r.Success? ==> |r.value| == |m|
  {
    match TransformedPairs(m, order, transform)
    case Failure(e) => Failure(e)
    case Success(pairs) =>
      PairsOfSuccessfulTransform(m, order, transform, pairs);
      Success(ToDictionary(pairs))
  }

  lemma PairsOfSuccessfulTransform<K, V, T, E>(m: map<K, V>, order: seq<K>, transform: K -> Result<T, E>,
                                              pairs: seq<(T, V)>)
    requires IsIterationOrder(m, order)
    requires AllSucceed(m, transform) ==> InjectiveOn(m, transform)
    requires TransformedPairs(m, order, transform) == Success(pairs)
    ensures AllSucceed(m, transform)
    ensures DistinctKeys(pairs)
    ensures var d := ToDictionary(pairs);
            && (forall k <- m.Keys :: transform(k).value in d && d[transform(k).value] == m[k])
            && (forall t <- d.Keys :: exists k <- m.Keys :: transform(k) == Success(t))
            && |d| == |m|
  {
    assert forall i :: 0 <= i < |order| ==>
      transform(order[i]).Success? && pairs[i] == (transform(order[i]).value, m[order[i]]);
    assert AllSucceed(m, transform);
    assert DistinctKeys(pairs);
    var d := ToDictionary(pairs);
    forall k <- m.Keys ensures transform(k).value in d && d[transform(k).value] == m[k] {
      var i :| 0 <= i < |order| && order[i] == k;
      assert pairs[i] == (transform(k).value, m[k]);
    }
    forall t <- d.Keys ensures exists k <- m.Keys :: transform(k) == Success(t) {
      var i :| 0 <= i < |pairs| && pairs[i].0 == t;
      assert order[i] in m.Keys;
    }
    IterationOrderLength(m, order);
  }

  lemma IterationOrderLength<K, V>(m: map<K, V>, order: seq<K>)
    requires IsIterationOrder(m, order)
    ensures |order| == |m|
  {
    var s := set i | 0 <= i < |order| :: order[i];
    assert s == m.Keys;
    DistinctLength(order);
  }

  lemma {:induction false} DistinctLength<K>(order: seq<K>)
    requires forall i, j :: 0 <= i < j < |order| ==> order[i] != order[j]
    ensures |set i | 0 <= i < |order| :: order[i]| == |order|
  {
    if order != [] {
      var init := order[..|order| - 1];
      DistinctLength(init);
      var s0 := set i | 0 <= i < |init| :: init[i];
      var s := set i | 0 <= i < |order| :: order[i];
      assert s == s0 + {order[|order| - 1]};
      assert order[|order| - 1] !in s0;
    }
  }

  /** When no key throws, the result does not depend on the iteration order. */
  lemma MapKeysOrderIrrelevant<K, V, T, E>(m: map<K, V>, order1: seq<K>, order2: seq<K>, transform: K -> Result<T, E>)
    requires IsIterationOrder(m, order1) && IsIterationOrder(m, order2)
    requires AllSucceed(m, transform) && InjectiveOn(m, transform)
    ensures MapKeys(m, order1, transform) == MapKeys(m, order2, transform)
  {
    RekeyedByMapKeys(m, order1, transform);
    RekeyedByMapKeys(m, order2, transform);
    RekeyedIsUnique(m, MapKeys(m, order1, transform).value, MapKeys(m, order2, transform).value, transform);
  }

  /** Re-keying by one transform determines the result. */
  lemma RekeyedIsUnique<K, V, T, E>(m: map<K, V>, d1: map<T, V>, d2: map<T, V>, forward: K -> Result<T, E>)
    requires IsRekeyed(m, d1, forward) && IsRekeyed(m, d2, forward)
    ensures d1 == d2
  {
    forall t | t in d1 ensures t in d2 && d1[t] == d2[t] {
      var k :| k in m.Keys && forward(k) == Success(t);
    }
    forall t | t in d2 ensures t in d1 {
      var k :| k in m.Keys && forward(k) == Success(t);
    }
    assert d1.Keys == d2.Keys;
  }

  /** `m'` holds the values of `m` under the keys `forward` gives them. */
  ghost predicate IsRekeyed<K, V, T, E>(m: map<K, V>, m': map<T, V>, forward: K -> Result<T, E>) {
    && (forall k <- m.Keys :: forward(k).Success? && forward(k).value in m' && m'[forward(k).value] == m[k])
    && (forall t <- m'.Keys :: exists k <- m.Keys :: forward(k) == Success(t))
  }

  lemma RekeyedByMapKeys<K, V, T, E>(m: map<K, V>, order: seq<K>, forward: K -> Result<T, E>)
    requires IsIterationOrder(m, order)
    requires AllSucceed(m, forward) && InjectiveOn(m, forward)
    ensures MapKeys(m, order, forward).Success?
    ensures IsRekeyed(m, MapKeys(m, order, forward).value, forward)
  {
  }

  lemma InverseRekeying<K, V, T, E>(m: map<K, V>, m': map<T, V>, forward: K -> Result<T, E>,
                                    backward: T -> Result<K, E>)
    requires IsRekeyed(m, m', forward)
    requires forall k <- m.Keys :: backward(forward(k).value) == Success(k)
    ensures AllSucceed(m', backward) && InjectiveOn(m', backward)
    ensures forall back: map<K, V> :: IsRekeyed(m', back, backward) ==> back == m
  {
    assert AllSucceed(m', backward) by {
      forall t <- m'.Keys ensures backward(t).Success? {
        var k :| k in m.Keys && forward(k) == Success(t);
      }
    }
    assert InjectiveOn(m', backward) by {
      forall t1 <- m'.Keys, t2 <- m'.Keys | t1 != t2
        ensures backward(t1).value != backward(t2).value
      {
        var k1 :| k1 in m.Keys && forward(k1) == Success(t1);
        var k2 :| k2 in m.Keys && forward(k2) == Success(t2);
      }
    }
    forall back: map<K, V> | IsRekeyed(m', back, backward) ensures back == m {
      forall k | k in m ensures k in back && back[k] == m[k] {
        assert backward(forward(k).value).value == k;
      }
      forall k | k in back ensures k in m {
        var t :| t in m'.Keys && backward(t) == Success(k);
        var k0 :| k0 in m.Keys && forward(k0) == Success(t);
      }
    }
  }

  /** Re-keying with a transform and then with its inverse gives the original
      dictionary back, whatever order the re-keyed dictionary iterates in. */
  lemma MapKeysInverse<K, V, T, E>(m: map<K, V>, order: seq<K>, forward: K -> Result<T, E>,
                                   backward: T -> Result<K, E>, order': seq<T>)
    requires IsIterationOrder(m, order)
    requires AllSucceed(m, forward) && InjectiveOn(m, forward)
    requires forall k <- m.Keys :: backward(forward(k).value) == Success(k)
    requires IsIterationOrder(MapKeys(m, order, forward).value, order')
    ensures var m' := MapKeys(m, order, forward).value;
            && AllSucceed(m', backward) && InjectiveOn(m', backward)
            && MapKeys(m', order', backward) == Success(m)
  {
    var m' := MapKeys(m, order, forward).value;
    RekeyedByMapKeys(m, order, forward);
    InverseRekeying(m, m', forward, backward);
    RekeyedByMapKeys(m', order', backward);
    var back := MapKeys(m', order', backward).value;
    assert IsRekeyed(m', back, backward);
    assert back == m;
  }
}

=== FILE: haptic.dfy ===
/** The event lists `Haptic` builds before handing them to the haptic engine
    (Haptica/Haptic.swift). Only that arithmetic is modelled; `Double` and
    `Float` are idealised as `real`. */
module Haptic {
  import opened Wrappers
  import opened Comparable

  /** A transient `CHHapticEvent`: intensity and sharpness parameters, an
      attack time for the builders that set one, and the time relative to
      the start of the pattern. */
  datatype HapticEvent = Transient(intensity: real, sharpness: real, attackTime: Option<real>, relativeTime: real)

  /** `Haptic.Tick` */
  datatype Tick = Tick(intensity: real, sharpness: real, relativeTime: real)

  /** Step of the warning pattern's `stride(from: 0, to: duration, by: 0.1)`. */
  const WarningStride: real := 0.1
  /** The roll-away loop runs while the remaining time exceeds this. */
  const RollAwayCutoff: real := 0.1
  /** Each roll-away step divides the remaining time by this. */
  const RollAwayDecay: real := 1.3

  // ---------------------------------------------------------------- warning

  /** The warning parameter at time `t`: the clamped magnitude, fading
      linearly to zero at `duration`. */
  function WarningValue(magnitude: real, duration: real, t: real): real
    requires duration > 0.0
  {
    (1.0 - t / duration) * UnitClamped(magnitude)
  }

  function WarningEvent(magnitude: real, duration: real, k: nat): HapticEvent
    requires duration > 0.0
  {
    var t := k as real * WarningStride;
    var v := WarningValue(magnitude, duration, t);
    Transient(v, v, None, t)
  }

  lemma ScaleBounds(a: real, c: real)
    requires 0.0 <= a <= 1.0 && 0.0 <= c <= 1.0
    ensures 0.0 <= a * c <= c
  {
    assert (1.0 - a) * c >= 0.0;
  }

  lemma WarningValueBounds(magnitude: real, duration: real, t: real)
    requires 0.0 <= t < duration
    ensures 0.0 <= WarningValue(magnitude, duration, t) <= 1.0
  {
    var fade := 1.0 - t / duration;
    assert t / duration < 1.0 by {
      assert t / duration * duration == t;
    }
    ScaleBounds(fade, UnitClamped(magnitude));
  }

  lemma WarningValueNonIncreasing(magnitude: real, duration: real, t1: real, t2: real)
    requires 0.0 <= t1 <= t2 && duration > 0.0
    ensures WarningValue(magnitude, duration, t2) <= WarningValue(magnitude, duration, t1)
  {
    var c := UnitClamped(magnitude);
    assert t1 / duration <= t2 / duration by {
      assert (t2 - t1) / duration >= 0.0;
      assert t2 / duration - t1 / duration == (t2 - t1) / duration;
    }
    var f1 := 1.0 - t1 / duration;
    var f2 := 1.0 - t2 / duration;
    assert (f1 - f2) * c >= 0.0;
  }

  /** What `playWarningHaptic(magnitude:duration:)` schedules. */
  ghost predicate IsWarning(magnitude: real, duration: real, events: seq<HapticEvent>) {
    WarningTimes(duration, events) && WarningLevels(magnitude, duration, events)
  }

  /** The timing half of `IsWarning`: no events unless `duration > 0`, and
      otherwise one every 0.1 from 0 up to but excluding `duration`. */
  ghost predicate WarningTimes(duration: real, events: seq<HapticEvent>) {
    && (duration <= 0.0 ==> events == [])
    && (forall k :: 0 <= k < |events| ==>
          events[k].relativeTime == k as real * WarningStride && events[k].relativeTime < duration)
    && |events| as real * WarningStride >= duration
    && (forall j, k :: 0 <= j < k < |events| ==> events[j].relativeTime < events[k].relativeTime)
  }

  /** The level half of `IsWarning`: intensity and sharpness share the value
      `(1 - t / duration) * clamp(magnitude)`, which lies in [0, 1] and never
      grows from one event to a later one; no attack time is set. */
  ghost predicate WarningLevels(magnitude: real, duration: real, events: seq<HapticEvent>) {
    && (forall k :: 0 <= k < |events| ==>
          && duration > 0.0
          && events[k].attackTime == None
          && events[k].sharpness == events[k].intensity
          && events[k].intensity == (1.0 - events[k].relativeTime / duration) * Clamped(magnitude, 0.0, 1.0)
          && 0.0 <= events[k].intensity <= 1.0)
    && (forall j, k :: 0 <= j < k < |events| ==> events[k].intensity <= events[j].intensity)
  }

  /** The loop invariant: the events so far are the first ones of the stride. */
  ghost predicate WarningSoFar(magnitude: real, duration: real, events: seq<HapticEvent>) {
    && (events != [] ==> duration > 0.0)
    && (forall j :: 0 <= j < |events| ==>
          j as real * WarningStride < duration && events[j] == WarningEvent(magnitude, duration, j))
  }

  lemma WarningDoneTimes(magnitude: real, duration: real, events: seq<HapticEvent>)
    requires WarningSoFar(magnitude, duration, events)
    requires |events| as real * WarningStride >= duration
    ensures WarningTimes(duration, events)
  {
  }

  lemma WarningEventFacts(magnitude: real, duration: real, k: nat)
    requires duration > 0.0 && k as real * WarningStride < duration
    ensures var e := WarningEvent(magnitude, duration, k);
            && e.relativeTime == k as real * WarningStride
            && e.attackTime == None
            && e.sharpness == e.intensity
            && e.intensity == (1.0 - e.relativeTime / duration) * Clamped(magnitude, 0.0, 1.0)
            && 0.0 <= e.intensity <= 1.0
  {
    WarningValueBounds(magnitude, duration, k as real * WarningStride);
  }

  lemma WarningDoneLevels(magnitude: real, duration: real, events: seq<HapticEvent>)
    requires WarningSoFar(magnitude, duration, events)
    ensures WarningLevels(magnitude, duration, events)
  {
    forall k | 0 <= k < |events|
      ensures && duration > 0.0
              && events[k].attackTime == None
              && events[k].sharpness == events[k].intensity
              && events[k].intensity == (1.0 - events[k].relativeTime / duration) * Clamped(magnitude, 0.0, 1.0)
              && 0.0 <= events[k].intensity <= 1.0
    {
      assert k as real * WarningStride < duration && events[k] == WarningEvent(magnitude, duration, k);
      WarningEventFacts(magnitude, duration, k);
    }
    WarningDoneMonotone(magnitude, duration, events);
  }

  lemma WarningDoneMonotone(magnitude: real, duration: real, events: seq<HapticEvent>)
    requires WarningSoFar(magnitude, duration, events)
    ensures forall j, k :: 0 <= j < k < |events| ==> events[k].intensity <= events[j].intensity
  {
    forall i, j | 0 <= i < j < |events|
      ensures events[j].intensity <= events[i].intensity
    {
      assert events[i] == WarningEvent(magnitude, duration, i);
      assert events[j] == WarningEvent(magnitude, duration, j);
      WarningValueNonIncreasing(magnitude, duration, i as real * WarningStride, j as real * WarningStride);
    }
  }

  /** The events of `playWarningHaptic(magnitude:duration:)`: the stride
      from 0 to `duration` by 0.1, one event per point. */
  method WarningEvents(magnitude: real, duration: real) returns (events: seq<HapticEvent>)
    ensures IsWarning(magnitude, duration, events)
  {
    events := [];
    var k: nat := 0;
    while k as real * WarningStride < duration
      invariant |events| == k
      invariant WarningSoFar(magnitude, duration, events)
      decreases (duration * 10.0).Floor + 1 - k
    {
      events := events + [WarningEvent(magnitude, duration, k)];
      k := k + 1;
    }
    WarningDoneTimes(magnitude, duration, events);
    WarningDoneLevels(magnitude, duration, events);
  }

  // -------------------------------------------------------------- roll-away

  /** The event for a remaining time `remaining`: placed at
      `duration - remaining`, with the clamped product as intensity and
      sharpness and half of it as attack time. */
  function RollAwayEvent(magnitude: real, duration: real, remaining: real): HapticEvent {
    var v := UnitClamped(remaining * magnitude);
    Transient(v, v, Some(v / 2.0), duration - remaining)
  }

  lemma RollAwayEventFacts(magnitude: real, duration: real, remaining: real)
    ensures var e := RollAwayEvent(magnitude, duration, remaining);
            && e.relativeTime == duration - remaining
            && e.intensity == Clamped(remaining * magnitude, 0.0, 1.0)
            && e.sharpness == e.intensity
            && 0.0 <= e.intensity <= 1.0
            && e.attackTime == Some(e.intensity / 2.0)
  {
  }

  /** What `playRollAwayHaptic(magnitude:duration:)` schedules. Writing
      `duration - relativeTime` for an event's remaining time:
      - there are no events exactly when `duration <= 0.1`;
      - the first event is at time 0, so its remaining time is `duration`;
      - each event's remaining time is the previous one's divided by 1.3;
      - every remaining time exceeds 0.1, and the last one divided by 1.3 does not;
      - times lie in [0, duration) and strictly increase;
      - intensity and sharpness are both the remaining time times the
        magnitude, clamped into [0, 1], and the attack time is half of that. */
  ghost predicate IsRollAway(magnitude: real, duration: real, events: seq<HapticEvent>) {
    RollAwayTimes(duration, events) && RollAwayLevels(magnitude, duration, events)
  }

  /** The timing half of `IsRollAway`. */
  ghost predicate RollAwayTimes(duration: real, events: seq<HapticEvent>) {
    && (events == [] <==> duration <= RollAwayCutoff)
    && (events != [] ==> events[0].relativeTime == 0.0)
    && RollAwayChain(duration, events)
    && (forall k :: 0 <= k < |events| ==> duration - events[k].relativeTime > RollAwayCutoff)
    && (events != [] ==> (duration - events[|events| - 1].relativeTime) / RollAwayDecay <= RollAwayCutoff)
    && (forall k :: 0 <= k < |events| ==> 0.0 <= events[k].relativeTime < duration)
    && (forall j, k :: 0 <= j < k < |events| ==> events[j].relativeTime < events[k].relativeTime)
  }

  /** The level half of `IsRollAway`. */
  ghost predicate RollAwayLevels(magnitude: real, duration: real, events: seq<HapticEvent>) {
    forall k :: 0 <= k < |events| ==>
      && events[k].intensity == Clamped((duration - events[k].relativeTime) * magnitude, 0.0, 1.0)
      && events[k].sharpness == events[k].intensity
      && 0.0 <= events[k].intensity <= 1.0
      && events[k].attackTime == Some(events[k].intensity / 2.0)
  }

  /** The loop invariant: the events so far, and the remaining time the next
      one would get. */
  ghost predicate RollAwaySoFar(magnitude: real, duration: real, events: seq<HapticEvent>, remaining: real) {
    && RollAwayShape(duration, events, remaining)
    && RollAwayChain(duration, events)
    && RollAwayEach(magnitude, duration, events)
    && RollAwayBefore(duration, events, remaining)
  }

  /** The first event is at 0 and the next would come a step after the last. */
  ghost predicate RollAwayShape(duration: real, events: seq<HapticEvent>, remaining: real) {
    && (events == [] ==> remaining == duration)
    && (events != [] ==> events[0].relativeTime == 0.0)
    && (events != [] ==> remaining == (duration - events[|events| - 1].relativeTime) / RollAwayDecay)
    && remaining <= duration
  }

  /** Successive remaining times shrink by the decay factor. */
  ghost predicate RollAwayChain(duration: real, events: seq<HapticEvent>) {
    forall j, k :: 0 <= j < |events| && k == j + 1 && k < |events| ==>
      duration - events[k].relativeTime == (duration - events[j].relativeTime) / RollAwayDecay
  }

  /** Each event is the one for its remaining time, which exceeds the cutoff. */
  ghost predicate RollAwayEach(magnitude: real, duration: real, events: seq<HapticEvent>) {
    forall k :: 0 <= k < |events| ==>
      && duration - events[k].relativeTime > RollAwayCutoff
      && events[k] == RollAwayEvent(magnitude, duration, duration - events[k].relativeTime)
  }

  /** Times increase and all lie before the next event's. */
  ghost predicate RollAwayBefore(duration: real, events: seq<HapticEvent>, remaining: real) {
    && (forall k :: 0 <= k < |events| ==> 0.0 <= events[k].relativeTime < duration - remaining)
    && (forall j, k :: 0 <= j < k < |events| ==> events[j].relativeTime < events[k].relativeTime)
  }

  lemma RollAwayStep(magnitude: real, duration: real, events: seq<HapticEvent>, remaining: real)
    requires RollAwaySoFar(magnitude, duration, events, remaining)
    requires remaining > RollAwayCutoff
    ensures RollAwaySoFar(magnitude, duration, events + [RollAwayEvent(magnitude, duration, remaining)],
                          remaining / RollAwayDecay)
  {
    var next := events + [RollAwayEvent(magnitude, duration, remaining)];
    assert RollAwayShape(duration, next, remaining / RollAwayDecay);
    RollAwayChainStep(magnitude, duration, events, remaining);
    RollAwayEachStep(magnitude, duration, events, remaining);
    RollAwayBeforeStep(magnitude, duration, events, remaining);
  }

  lemma RollAwayChainStep(magnitude: real, duration: real, events: seq<HapticEvent>, remaining: real)
    requires RollAwayShape(duration, events, remaining) && RollAwayChain(duration, events)
    ensures RollAwayChain(duration, events + [RollAwayEvent(magnitude, duration, remaining)])
  {
    var next := events + [RollAwayEvent(magnitude, duration, remaining)];
    forall j, k | 0 <= j < |next| && k == j + 1 && k < |next|
      ensures duration - next[k].relativeTime == (duration - next[j].relativeTime) / RollAwayDecay
    {
      if k < |events| {
        assert next[j] == events[j] && next[k] == events[k];
      } else {
        assert next[j] == events[|events| - 1];
      }
    }
  }

  lemma RollAwayEachStep(magnitude: real, duration: real, events: seq<HapticEvent>, remaining: real)
    requires RollAwayEach(magnitude, duration, events) && remaining > RollAwayCutoff
    ensures RollAwayEach(magnitude, duration, events + [RollAwayEvent(magnitude, duration, remaining)])
  {
    var next := events + [RollAwayEvent(magnitude, duration, remaining)];
    assert duration - next[|events|].relativeTime == remaining;
    assert forall k :: 0 <= k < |events| ==> next[k] == events[k];
  }

  lemma RollAwayBeforeStep(magnitude: real, duration: real, events: seq<HapticEvent>, remaining: real)
    requires RollAwayBefore(duration, events, remaining)
    requires remaining <= duration && remaining > RollAwayCutoff
    ensures RollAwayBefore(duration, events + [RollAwayEvent(magnitude, duration, remaining)],
                           remaining / RollAwayDecay)
  {
    var next := events + [RollAwayEvent(magnitude, duration, remaining)];
    assert next[|events|].relativeTime == duration - remaining;
    assert forall k :: 0 <= k < |events| ==> next[k] == events[k];
  }

  lemma RollAwayDone(magnitude: real, duration: real, events: seq<HapticEvent>, remaining: real)
    requires RollAwaySoFar(magnitude, duration, events, remaining)
    requires remaining <= RollAwayCutoff
    ensures IsRollAway(magnitude, duration, events)
  {
    RollAwayDoneTimes(magnitude, duration, events, remaining);
    RollAwayDoneLevels(magnitude, duration, events, remaining);
  }

  lemma RollAwayDoneTimes(magnitude: real, duration: real, events: seq<HapticEvent>, remaining: real)
    requires RollAwaySoFar(magnitude, duration, events, remaining)
    requires remaining <= RollAwayCutoff
    ensures RollAwayTimes(duration, events)
  {
    if events != [] {
      assert duration - events[0].relativeTime > RollAwayCutoff;
    }
  }

  lemma RollAwayDoneLevels(magnitude: real, duration: real, events: seq<HapticEvent>, remaining: real)
    requires RollAwaySoFar(magnitude, duration, events, remaining)
    ensures RollAwayLevels(magnitude, duration, events)
  {
    forall k | 0 <= k < |events|
      ensures && events[k].intensity == Clamped((duration - events[k].relativeTime) * magnitude, 0.0, 1.0)
              && events[k].sharpness == events[k].intensity
              && 0.0 <= events[k].intensity <= 1.0
              && events[k].attackTime == Some(events[k].intensity / 2.0)
    {
      RollAwayEventFacts(magnitude, duration, duration - events[k].relativeTime);
    }
  }

  /** The events of `playRollAwayHaptic(magnitude:duration:)`: the loop
      divides the remaining time by 1.3 after each event while it exceeds
      0.1. It terminates for every duration: above 0.1 each division takes
      more than 0.3 / 13 off the remaining time. */
  method RollAwayEvents(magnitude: real, duration: real) returns (events: seq<HapticEvent>)
    ensures IsRollAway(magnitude, duration, events)
  {
    events := [];
    var remaining := duration;
    while remaining > RollAwayCutoff
      invariant RollAwaySoFar(magnitude, duration, events, remaining)
      decreases (remaining * 130.0 / 3.0).Floor
    {
      RollAwayStep(magnitude, duration, events, remaining);
      events := events + [RollAwayEvent(magnitude, duration, remaining)];
      remaining := remaining / RollAwayDecay;
    }
    RollAwayDone(magnitude, duration, events, remaining);
  }

  // ----------------------------------------------------------- level change

  /** The single parameter value of `playLevelChangeHaptic(level:)`. */
  function LevelChangeValue(level: real): (v: real)
    ensures 0.2 <= v <= 0.9
    ensures level <= 0.0 ==> v == 0.2
    ensures level >= 1.0 ==> v == 0.9
  {
    UnitClamped(level) * 0.7 + 0.2
  }

  /** The one event of `playLevelChangeHaptic(level:)`. */
  function LevelChangeEvents(level: real): (events: seq<HapticEvent>)
    ensures |events| == 1
    ensures events[0].relativeTime == 0.0 && events[0].attackTime == None
    ensures events[0].intensity == events[0].sharpness == LevelChangeValue(level)
  {
    var v := LevelChangeValue(level);
    [Transient(v, v, None, 0.0)]
  }

  /** A higher level never gives a weaker event. */
  lemma LevelChangeMonotone(a: real, b: real)
    requires a <= b
    ensures LevelChangeValue(a) <= LevelChangeValue(b)
  {
    ClampedMonotone(a, b, 0.0, 1.0);
  }

  /** Inside [0, 1] the level can be read back from the parameter value, so
      distinct levels give distinct events. */
  lemma LevelChangeRecoversLevel(level: real)
    requires 0.0 <= level <= 1.0
    ensures (LevelChangeValue(level) - 0.2) / 0.7 == level
  {
  }

  // ------------------------------------------------------------------ ticks

  function TickEvent(tick: Tick): HapticEvent {
    Transient(UnitClamped(tick.intensity), UnitClamped(tick.sharpness), None, tick.relativeTime)
  }

  /** The events of `playTicksHaptic(ticks:)`: one per tick, in order, with
      both parameters clamped into [0, 1] and the time copied. */
  function TicksEvents(ticks: seq<Tick>): (events: seq<HapticEvent>)
    ensures |events| == |ticks|
    ensures forall i :: 0 <= i < |ticks| ==>
              && events[i].relativeTime == ticks[i].relativeTime
              && events[i].intensity == Clamped(ticks[i].intensity, 0.0, 1.0)
              && events[i].sharpness == Clamped(ticks[i].sharpness, 0.0, 1.0)
              && events[i].attackTime == None
    ensures forall i :: 0 <= i < |events| ==>
              0.0 <= events[i].intensity <= 1.0 && 0.0 <= events[i].sharpness <= 1.0
  {
    if ticks == [] then [] else [TickEvent(ticks[0])] + TicksEvents(ticks[1..])
  }

  /** The events of a concatenation are the concatenated events. */
  lemma TicksEventsAppend(a: seq<Tick>, b: seq<Tick>)
    ensures TicksEvents(a + b) == TicksEvents(a) + TicksEvents(b)
  {
  }

  /** Ticks already inside [0, 1] reach the engine unchanged. */
  lemma TicksInRangeUnchanged(ticks: seq<Tick>)
    requires forall i :: 0 <= i < |ticks| ==>
               0.0 <= ticks[i].intensity <= 1.0 && 0.0 <= ticks[i].sharpness <= 1.0
    ensures forall i :: 0 <= i < |ticks| ==>
              TicksEvents(ticks)[i] == Transient(ticks[i].intensity, ticks[i].sharpness, None, ticks[i].relativeTime)
  {
  }
}

=== FILE: nearby_peer.dfy ===
/** `NearbyPeer` and its `DiscoveryInfo` record
    (Haptica/Services/Connectivity/NearbyPeer.swift). */
module NearbyPeers {
  import opened Wrappers

  /** An `MCPeerID`. The platform compares peer IDs by object identity, which
      `handle` stands for; two peers may share a display name. */
  datatype PeerId = PeerId(handle: nat, displayName: string)

  /** The raw form of discovery info, Swift's `[String: String]`. */
  type RawInfo = map<string, string>

  const DeviceKey: string := "device"
  const ChatNameKey: string := "chatName"

  /** What a peer advertises about itself. */
  datatype DiscoveryInfo = DiscoveryInfo(device: string, chatName: string)

  /** `rawValue`: exactly the two keys, holding the two fields. */
  function RawValue(info: DiscoveryInfo): (raw: RawInfo)
    ensures raw.Keys == {DeviceKey, ChatNameKey}
    ensures raw[DeviceKey] == info.device && raw[ChatNameKey] == info.chatName
  {
    map[DeviceKey := info.device, ChatNameKey := info.chatName]
  }

  /** `init?(rawValue:)`: fails exactly when a key is missing; other keys are ignored. */
  function FromRawValue(raw: RawInfo): (r: Option<DiscoveryInfo>)
    ensures r.None? <==> DeviceKey !in raw || ChatNameKey !in raw
    ensures r.Some? ==> r.value.device == raw[DeviceKey] && r.value.chatName == raw[ChatNameKey]
  {
    if DeviceKey in raw && ChatNameKey in raw then
      Some(DiscoveryInfo(raw[DeviceKey], raw[ChatNameKey]))
    else
      None
  }

  /** Decoding an encoded record gives the record back. */
  lemma RawValueRoundTrip(info: DiscoveryInfo)
    ensures FromRawValue(RawValue(info)) == Some(info)
  {
  }

  /** Encoding a decoded record gives back the two keys of the dictionary it
      came from, and nothing else. */
  lemma FromRawValueRoundTrip(raw: RawInfo)
    requires FromRawValue(raw).Some?
    ensures RawValue(FromRawValue(raw).value) == map k | k in raw && k in {DeviceKey, ChatNameKey} :: raw[k]
  {
  }

  /** Keys other than the two the record uses make no difference. */
  lemma FromRawValueIgnoresExtraKeys(raw: RawInfo, key: string, value: string)
    requires key != DeviceKey && key != ChatNameKey
    ensures FromRawValue(raw[key := value]) == FromRawValue(raw)
  {
  }

  /** A discovered or advertising peer. Its `id` is its peer ID. */
  datatype NearbyPeer = NearbyPeer(peerID: PeerId, discoveryInfo: Option<DiscoveryInfo>) {
    function Id(): (id: PeerId)
      ensures id == peerID
    {
      peerID
    }
  }

  /** Two peers are the same `Identifiable` entity exactly when their peer
      IDs agree, whatever discovery info either carries. */
  lemma SameIdIffSamePeer(p: NearbyPeer, q: NearbyPeer)
    ensures p.Id() == q.Id() <==> p.peerID == q.peerID
    ensures p.Id() == p.(discoveryInfo := q.discoveryInfo).Id()
  {
  }

  /** `init(peerID:discoveryInfo:)` taking the raw dictionary a browser reports. */
  function FromDictionary(peerID: PeerId, dict: Option<RawInfo>): (p: NearbyPeer)
    ensures p.Id() == peerID
    ensures dict.None? ==> p.discoveryInfo == None
    ensures dict.Some? ==> p.discoveryInfo == FromRawValue(dict.value)
  {
    match dict
    case None => NearbyPeer(peerID, None)
    case Some(d) => NearbyPeer(peerID, FromRawValue(d))
  }

  /** The part of an `MCNearbyServiceAdvertiser` the app reads back: whose
      peer it advertises and the raw discovery info it sends. */
  datatype Advertiser = Advertiser(peer: PeerId, discoveryInfo: Option<RawInfo>)

  /** `makeAdvertiser(serviceType:)`: advertises the peer's info in raw form.
      The service type string is handed to the platform and not modelled. */
  function MakeAdvertiser(p: NearbyPeer): (a: Advertiser)
    ensures a.peer == p.peerID
    ensures a.discoveryInfo.None? <==> p.discoveryInfo.None?
    ensures a.discoveryInfo.Some? ==> a.discoveryInfo.value.Keys == {DeviceKey, ChatNameKey}
  {
    match p.discoveryInfo
    case None => Advertiser(p.peerID, None)
    case Some(info) => Advertiser(p.peerID, Some(RawValue(info)))
  }

  /** A browser that sees an advertiser rebuilds exactly the peer that is
      being advertised. */
  lemma AdvertisedPeerIsDiscovered(p: NearbyPeer)
    ensures FromDictionary(MakeAdvertiser(p).peer, MakeAdvertiser(p).discoveryInfo) == p
  {
    if p.discoveryInfo.Some? {
      RawValueRoundTrip(p.discoveryInfo.value);
    }
  }
}

=== FILE: recorder.dfy ===
/** The recorder and player behind the touch canvas
    (`HapticRecorder.Observed` in Haptica/HapticRecorder.swift): its five
    modes, the effect of each user action on the mode and the touch lists,
    and the transient events a recording is turned into.

    Dates are seconds since the reference date, as `real`; a saved file's
    URL is an opaque value; the outcome of saving a pattern is an input. */
module Recorder {
  import opened Wrappers
  import opened Comparable
  import opened Haptic

  type Date = real

  datatype Url = Url(path: string)

  /** A touch location as a fraction of the canvas size. */
  datatype UnitPoint = UnitPoint(x: real, y: real)

  /** `TouchItem`: where and when the canvas was touched, and the running
      time of the recording or playback at that moment. */
  datatype TouchItem = TouchItem(locationUnit: UnitPoint, creationDate: Date, time: real)

  /** `ViewMode` */
  datatype ViewMode =
    | Idle
    | Recording(startDate: Date)
    | ReadyForPlayback(url: Url)
    | PlaybackInProgress(url: Url)
    | Loading

  /** The published state of `Observed` that the modelled operations read or write. */
  datatype Observed = Observed(
    touchItems: seq<TouchItem>,
    mode: ViewMode,
    recordedTouchItems: seq<TouchItem>,
    runningTime: real)

  const Initial := Observed([], Idle, [], 0.0)

  // ------------------------------------------------------------ mode flags

  predicate IsIdle(s: Observed) { s.mode == Idle }
  predicate IsLoading(s: Observed) { s.mode == Loading }
  predicate IsRecording(s: Observed) { s.mode.Recording? }
  predicate IsReadyForPlayback(s: Observed) { s.mode.ReadyForPlayback? }
  predicate IsPlaybackInProgress(s: Observed) { s.mode.PlaybackInProgress? }

  function Count(b: bool): nat { if b then 1 else 0 }

  /** The five flags partition the modes: in every state exactly one holds. */
  lemma ExactlyOneMode(s: Observed)
    ensures Count(IsIdle(s)) + Count(IsLoading(s)) + Count(IsRecording(s))
          + Count(IsReadyForPlayback(s)) + Count(IsPlaybackInProgress(s)) == 1
  {
  }

  /** Touches are accepted while idle, recording or showing a finished recording. */
  predicate AcceptsTouches(s: Observed) {
    IsIdle(s) || IsRecording(s) || IsReadyForPlayback(s)
  }

  // --------------------------------------------------------------- actions

  /** `registerTouch(locationUnit:date:)`; the tick it plays is left out. */
  function RegisterTouch(s: Observed, location: UnitPoint, date: Date): (r: Observed)
    ensures AcceptsTouches(s) ==>
              && |r.touchItems| == |s.touchItems| + 1
              && r.touchItems[..|s.touchItems|] == s.touchItems
              && r.touchItems[|s.touchItems|] == TouchItem(location, date, s.runningTime)
              && r.(touchItems := s.touchItems) == s
    ensures !AcceptsTouches(s) ==> r == s
    ensures r.mode == s.mode
  {
    if AcceptsTouches(s) then
      s.(touchItems := s.touchItems + [TouchItem(location, date, s.runningTime)])
    else
      s
  }

  /** `reset()`: the subscriber and the timer are dropped, and the timer's
      clean-up zeroes the running time. */
  function Reset(s: Observed): (r: Observed)
    ensures r.touchItems == [] && r.recordedTouchItems == []
    ensures IsIdle(r) && r.runningTime == 0.0
  {
    s.(touchItems := [], recordedTouchItems := [], mode := Idle, runningTime := 0.0)
  }

  /** Every state resets to the initial one. */
  lemma ResetForgetsEverything(s: Observed, t: Observed)
    ensures Reset(s) == Reset(t) == Initial
  {
  }

  /** `startRecording()`: a reset, then recording from `now`. */
  function StartRecording(s: Observed, now: Date): (r: Observed)
    ensures r.mode == Recording(now)
    ensures r.touchItems == [] && r.recordedTouchItems == [] && r.runningTime == 0.0
  {
    Reset(s).(mode := Recording(now))
  }

  /** `startPlayback()`: only a finished recording starts playing, with its URL. */
  function StartPlayback(s: Observed): (r: Observed)
    ensures s.mode.ReadyForPlayback? ==> r == s.(mode := PlaybackInProgress(s.mode.url))
    ensures !s.mode.ReadyForPlayback? ==> r == s
  {
    match s.mode
    case ReadyForPlayback(url) => s.(mode := PlaybackInProgress(url))
    case _ => s
  }

  /** `stopPlayback()`: only a playback stops, back to the same recording;
      stopping the timer zeroes the running time. */
  function StopPlayback(s: Observed): (r: Observed)
    ensures s.mode.PlaybackInProgress? ==> r == s.(mode := ReadyForPlayback(s.mode.url), runningTime := 0.0)
    ensures !s.mode.PlaybackInProgress? ==> r == s
  {
    match s.mode
    case PlaybackInProgress(url) => s.(mode := ReadyForPlayback(url), runningTime := 0.0)
    case _ => s
  }

  /** Playing a recording and stopping it comes back to the same recording,
      with only the running time reset. */
  lemma StopUndoesStartPlayback(s: Observed)
    requires IsReadyForPlayback(s)
    ensures StopPlayback(StartPlayback(s)) == s.(runningTime := 0.0)
    ensures IsPlaybackInProgress(StartPlayback(s))
  {
  }

  /** Starting playback twice is starting it once; so is stopping. */
  lemma PlaybackTogglesAreIdempotent(s: Observed)
    ensures StartPlayback(StartPlayback(s)) == StartPlayback(s)
    ensures StopPlayback(StopPlayback(s)) == StopPlayback(s)
  {
  }

  // ------------------------------------------------------- recorded events

  /** `recordedTouchItems.map(\.creationDate).min()` */
  function MinDate(items: seq<TouchItem>): (r: Option<Date>)
    ensures r.None? <==> items == []
    ensures r.Some? ==> forall i :: 0 <= i < |items| ==> r.value <= items[i].creationDate
    ensures r.Some? ==> exists i :: 0 <= i < |items| && items[i].creationDate == r.value
  {
    if items == [] then None
    else
      var rest := MinDate(items[1..]);
      if rest.Some? && rest.value < items[0].creationDate then
        assert forall i :: 1 <= i < |items| ==> items[i] == items[1..][i - 1];
        var j :| 0 <= j < |items[1..]| && items[1..][j].creationDate == rest.value;
        assert items[j + 1].creationDate == rest.value;
        rest
      else
        assert forall i :: 1 <= i < |items| ==> items[i] == items[1..][i - 1];
        Some(items[0].creationDate)
  }

  /** `relativeTimeForRecordedItems(of:)`: seconds from the earliest
      recorded touch, or from `now` when nothing was recorded. */
  function RelativeTimeForRecordedItems(recorded: seq<TouchItem>, date: Date, now: Date): (r: real)
    ensures recorded == [] ==> r == date - now
    ensures forall i :: 0 <= i < |recorded| ==> r >= date - recorded[i].creationDate
    ensures recorded != [] ==> exists i :: 0 <= i < |recorded| && r == date - recorded[i].creationDate
  {
    date - MinDate(recorded).GetOr(now)
  }

  /** A recorded touch's time is never before the earliest one, and is zero
      exactly for the touches at the earliest date. */
  lemma RelativeTimeOfRecordedTouch(recorded: seq<TouchItem>, i: nat, now: Date)
    requires i < |recorded|
    ensures RelativeTimeForRecordedItems(recorded, recorded[i].creationDate, now) >= 0.0
    ensures RelativeTimeForRecordedItems(recorded, recorded[i].creationDate, now) == 0.0 <==>
              forall j :: 0 <= j < |recorded| ==> recorded[i].creationDate <= recorded[j].creationDate
  {
  }

  /** The transient event for one touch measured from `base`: the horizontal
      position is the intensity, the distance from the bottom the
      sharpness, both clamped into [0, 1]. */
  function TouchEvent(item: TouchItem, base: Date): HapticEvent {
    Transient(UnitClamped(item.locationUnit.x), UnitClamped(1.0 - item.locationUnit.y),
              None, item.creationDate - base)
  }

  /** Each item of `items` as an event, timed by `relativeTimeForRecordedItems`
      against `recorded`: the mapping in `stopRecording()` and `pattern(from:)`. */
  function EventsAgainst(items: seq<TouchItem>, recorded: seq<TouchItem>, now: Date): (r: seq<HapticEvent>)
    ensures |r| == |items|
    ensures forall i :: 0 <= i < |items| ==>
              && r[i].intensity == Clamped(items[i].locationUnit.x, 0.0, 1.0)
              && r[i].sharpness == Clamped(1.0 - items[i].locationUnit.y, 0.0, 1.0)
              && 0.0 <= r[i].intensity <= 1.0 && 0.0 <= r[i].sharpness <= 1.0
              && r[i].attackTime == None
              && r[i].relativeTime == RelativeTimeForRecordedItems(recorded, items[i].creationDate, now)
  {
    seq(|items|, i requires 0 <= i < |items| => TouchEvent(items[i], MinDate(recorded).GetOr(now)))
  }

  /** `pattern(from:)` corrected to time the events against its own
      argument; `stopRecording()` saves exactly this for the recorded
      touches. One event per touch, in order, none before time 0, the
      earliest touch at exactly 0, and the gaps between events those between
      the touches. */
  function PatternFrom(items: seq<TouchItem>, now: Date): (r: seq<HapticEvent>)
    ensures |r| == |items|
    ensures forall i :: 0 <= i < |items| ==>
              && r[i].intensity == Clamped(items[i].locationUnit.x, 0.0, 1.0)
              && r[i].sharpness == Clamped(1.0 - items[i].locationUnit.y, 0.0, 1.0)
              && r[i].attackTime == None
              && r[i].relativeTime >= 0.0
    ensures items != [] ==> exists i :: 0 <= i < |r| && r[i].relativeTime == 0.0
    ensures forall i, j :: 0 <= i < |items| && 0 <= j < |items| ==>
              r[j].relativeTime - r[i].relativeTime == items[j].creationDate - items[i].creationDate
  {
    var r := EventsAgainst(items, items, now);
    forall i | 0 <= i < |items|
      ensures r[i].relativeTime >= 0.0
    {
      RelativeTimeOfRecordedTouch(items, i, now);
    }
    assert items != [] ==> exists i :: 0 <= i < |r| && r[i].relativeTime == 0.0 by {
      if items != [] {
        var earliest :| 0 <= earliest < |items| && items[earliest].creationDate == MinDate(items).value;
        assert r[earliest].relativeTime == 0.0;
      }
    }
    r
  }

  /** `pattern(from:)` as written: the events of `items`, but timed against
      the recorded touches rather than against `items`. */
  function PatternFromAsWritten(s: Observed, items: seq<TouchItem>, now: Date): (r: seq<HapticEvent>)
    ensures |r| == |items|
    ensures forall i :: 0 <= i < |items| ==>
              r[i].relativeTime == items[i].creationDate - MinDate(s.recordedTouchItems).GetOr(now)
  {
    EventsAgainst(items, s.recordedTouchItems, now)
  }

  /** For touches other than the recorded ones, the pattern as written can
      place an event before the start of the pattern. */
  lemma PatternFromAsWrittenCanBeNegative()
    ensures var recorded := [TouchItem(UnitPoint(0.5, 0.5), 5.0, 0.0)];
            var s := Observed([], Idle, recorded, 0.0);
            PatternFromAsWritten(s, [TouchItem(UnitPoint(0.5, 0.5), 3.0, 0.0)], 0.0)[0].relativeTime == -2.0
  {
  }

  /** On the recorded touches themselves the two versions agree. */
  lemma PatternFromAgreesOnRecorded(s: Observed, now: Date)
    ensures PatternFromAsWritten(s, s.recordedTouchItems, now) == PatternFrom(s.recordedTouchItems, now)
  {
  }

  /** What `stopRecording()` leaves behind, and the events it tried to save. */
  datatype Stopped = Stopped(state: Observed, pattern: seq<HapticEvent>)

  /** `stopRecording()`. `saved` is the URL the pattern was written to, or
      `None` when building or saving it threw. The transient `loading` mode
      is not observable between two actions. */
  function StopRecording(s: Observed, now: Date, saved: Option<Url>): (r: Stopped)
    ensures r.pattern == PatternFrom(s.recordedTouchItems, now)
    ensures saved.Some? ==> r.state.mode == ReadyForPlayback(saved.value)
    ensures saved.None? ==> IsIdle(r.state)
    ensures !IsRecording(r.state) && !IsLoading(r.state)
    ensures r.state.touchItems == s.touchItems && r.state.recordedTouchItems == s.recordedTouchItems
    ensures r.state.runningTime == 0.0
  {
    var loading := s.(mode := Loading, runningTime := 0.0);
    var events := PatternFrom(s.recordedTouchItems, now);
    match saved
    case Some(url) => Stopped(loading.(mode := ReadyForPlayback(url)), events)
    case None => Stopped(loading.(mode := Idle), events)
  }

  /** `loadRecording(_:)`. Reading the file, parsing its JSON into a
      pattern and `touchItems(for:)` are an input: `decoded` is `None` when
      any of them fails, and otherwise the touches the pattern holds. An
      unreadable file or an empty pattern changes nothing; otherwise the
      touches become the recorded ones and the file is ready to play. The
      main-actor hop is applied at once. */
  function LoadRecording(s: Observed, url: Url, decoded: Option<seq<TouchItem>>): (r: Observed)
    ensures decoded.None? || decoded.value == [] ==> r == s
    ensures decoded.Some? && decoded.value != [] ==>
              && r.mode == ReadyForPlayback(url) && r.recordedTouchItems == decoded.value
              && r.touchItems == s.touchItems && r.runningTime == s.runningTime
  {
    match decoded
    case Some(items) => if items == [] then s else s.(recordedTouchItems := items, mode := ReadyForPlayback(url))
    case None => s
  }

  /** A loaded recording plays from the loaded file, and stopping the
      playback comes back to it with the same touches. */
  lemma LoadedRecordingPlays(s: Observed, url: Url, items: seq<TouchItem>)
    requires items != []
    ensures var loaded := LoadRecording(s, url, Some(items));
            && StartPlayback(loaded).mode == PlaybackInProgress(url)
            && StopPlayback(StartPlayback(loaded)) == loaded.(runningTime := 0.0)
            && StopPlayback(StartPlayback(loaded)).recordedTouchItems == items
  {
  }
}

=== FILE: recorder_trace.dfy ===
/** Runs of the recorder: any sequence of the user's actions, each applied
    atomically from the initial state. */
module RecorderTrace {
  import opened Wrappers
  import opened Recorder

  datatype Action =
    | Touch(location: UnitPoint, date: Date)
    | Reset
    | StartRecording(now: Date)
    | StopRecording(now: Date, saved: Option<Url>)
    | StartPlayback
    | StopPlayback
    | LoadRecording(url: Url, decoded: Option<seq<TouchItem>>)

  function Apply(s: Observed, action: Action): Observed {
    match action
    case Touch(location, date) => RegisterTouch(s, location, date)
    case Reset => Recorder.Reset(s)
    case StartRecording(now) => Recorder.StartRecording(s, now)
    case StopRecording(now, saved) => Recorder.StopRecording(s, now, saved).state
    case StartPlayback => Recorder.StartPlayback(s)
    case StopPlayback => Recorder.StopPlayback(s)
    case LoadRecording(url, decoded) => Recorder.LoadRecording(s, url, decoded)
  }

  /** The state after the actions, in order, from `s`. */
  function Run(s: Observed, actions: seq<Action>): Observed
    decreases |actions|
  {
    if actions == [] then s
    else Apply(Run(s, actions[..|actions| - 1]), actions[|actions| - 1])
  }

  /** The file an action makes ready to play, if it does: a stop whose
      recording was saved, or a load of a file holding touches. */
  function Stored(action: Action): Option<Url> {
    match action
    case StopRecording(_, saved) => saved
    case LoadRecording(url, decoded) =>
      if decoded.Some? && decoded.value != [] then Some(url) else None
    case _ => None
  }

  /** The files that some action in `actions` saved or loaded. */
  function KnownUrls(actions: seq<Action>): set<Url> {
    set i | 0 <= i < |actions| && Stored(actions[i]).Some? :: Stored(actions[i]).value
  }

  /** The URL a mode refers to, if any. */
  function ModeUrl(mode: ViewMode): Option<Url> {
    match mode
    case ReadyForPlayback(url) => Some(url)
    case PlaybackInProgress(url) => Some(url)
    case _ => None
  }

  /** Between two actions the recorder is never loading, and any recording
      it offers or plays is one that an earlier action saved or loaded. */
  predicate Reachable(s: Observed, actions: seq<Action>) {
    && !IsLoading(s)
    && (ModeUrl(s.mode).Some? ==> ModeUrl(s.mode).value in KnownUrls(actions))
  }

  lemma KnownUrlsGrow(actions: seq<Action>, action: Action)
    ensures KnownUrls(actions) <= KnownUrls(actions + [action])
    ensures Stored(action).Some? ==> Stored(action).value in KnownUrls(actions + [action])
  {
    var extended := actions + [action];
    forall u | u in KnownUrls(actions)
      ensures u in KnownUrls(extended)
    {
      var i :| 0 <= i < |actions| && Stored(actions[i]) == Some(u);
      assert extended[i] == actions[i];
    }
    if Stored(action).Some? {
      assert extended[|actions|] == action;
    }
  }

  lemma ApplyKeepsReachable(s: Observed, actions: seq<Action>, action: Action)
    requires Reachable(s, actions)
    ensures Reachable(Apply(s, action), actions + [action])
  {
    KnownUrlsGrow(actions, action);
  }

  /** Every run from the initial state stays reachable. */
  lemma {:induction false} RunIsReachable(actions: seq<Action>)
    ensures Reachable(Run(Initial, actions), actions)
    decreases |actions|
  {
    if actions != [] {
      var prefix := actions[..|actions| - 1];
      RunIsReachable(prefix);
      ApplyKeepsReachable(Run(Initial, prefix), prefix, actions[|actions| - 1]);
      assert prefix + [actions[|actions| - 1]] == actions;
    }
  }

  /** A run that neither saves nor loads a recording never reaches playback. */
  lemma NothingStoredNothingToPlay(actions: seq<Action>)
    requires KnownUrls(actions) == {}
    ensures !IsReadyForPlayback(Run(Initial, actions)) && !IsPlaybackInProgress(Run(Initial, actions))
  {
    RunIsReachable(actions);
  }
}

=== FILE: sequence_extensions.dfy ===
/** The order-preserving de-duplication helpers the app adds to `Sequence` and
    `Array` (Haptica/HapticRecorder.swift, end of file). `removeDuplicates()`
    and `removeAllOccurrences(of:)` mutate an array in place; here they are
    the functions whose result the array is reassigned to. */
module SequenceExtensions {

  predicate NoDuplicates<T(==)>(s: seq<T>) {
    forall i, j :: 0 <= i < j < |s| ==> s[i] != s[j]
  }

  /** `removeAllOccurrences(of: e)`, i.e. `removeAll(where: { $0 == e })`. */
  function RemoveAllOccurrences<T(==)>(s: seq<T>, e: T): (r: seq<T>)
    ensures e !in r
    ensures multiset(r) == multiset(s)[e := 0]
    ensures |r| == |s| - multiset(s)[e]
  {
    if s == [] then []
    else
      assert s == [s[0]] + s[1..];
      (if s[0] == e then [] else [s[0]]) + RemoveAllOccurrences(s[1..], e)
  }

  /** Removing occurrences works piecewise on a concatenation, so the elements
      that survive stay in their original relative order. */
  lemma {:induction false} RemoveAllOccurrencesDistributes<T>(a: seq<T>, b: seq<T>, e: T)
    ensures RemoveAllOccurrences(a + b, e) == RemoveAllOccurrences(a, e) + RemoveAllOccurrences(b, e)
  {
    if a == [] {
      assert a + b == b;
    } else {
      assert (a + b)[0] == a[0];
      assert (a + b)[1..] == a[1..] + b;
      RemoveAllOccurrencesDistributes(a[1..], b, e);
    }
  }

  /** Removing an element that does not occur changes nothing. */
  lemma {:induction false} RemoveAbsentIsIdentity<T>(s: seq<T>, e: T)
    requires e !in s
    ensures RemoveAllOccurrences(s, e) == s
  {
    if s != [] {
      assert e !in s[1..];
      RemoveAbsentIsIdentity(s[1..], e);
    }
  }

  /** The body of `duplicatesRemoved`: `reduce(into: [])`, appending each
      element to the partial result unless the partial result already
      contains it. */
  function Accumulate<T(==)>(acc: seq<T>, rest: seq<T>): (r: seq<T>)
    requires NoDuplicates(acc)
    ensures NoDuplicates(r)
    ensures forall x <- r :: x in acc || x in rest
    ensures forall x <- acc + rest :: x in r
    ensures |acc| <= |r| && r[..|acc|] == acc
    decreases rest
  {
    if rest == [] then acc
    else
      var next := if rest[0] in acc then acc else acc + [rest[0]];
      var r := Accumulate(next, rest[1..]);
      assert r[..|acc|] == next[..|acc|];
      r
  }

  /** `duplicatesRemoved`: one copy of every element, in the order of first occurrence. */
  function DuplicatesRemoved<T(==)>(s: seq<T>): (r: seq<T>)
    ensures NoDuplicates(r)
    ensures forall x <- r :: x in s
    ensures forall x <- s :: x in r
    ensures |r| <= |s|
  {
    AccumulateLength([], s);
    Accumulate([], s)
  }

  lemma {:induction false} AccumulateLength<T>(acc: seq<T>, rest: seq<T>)
    requires NoDuplicates(acc)
    ensures |Accumulate(acc, rest)| <= |acc| + |rest|
    decreases rest
  {
    if rest != [] {
      var next := if rest[0] in acc then acc else acc + [rest[0]];
      AccumulateLength(next, rest[1..]);
    }
  }

  /** Reference definition of "first occurrences in order": keep the head,
      drop every later copy of it, and recurse. */
  function FirstOccurrences<T(==)>(s: seq<T>): seq<T>
  {
    if s == [] then [] else [s[0]] + RemoveAllOccurrences(FirstOccurrences(s[1..]), s[0])
  }

  /** The elements of `xs` that are not in `seen`, in order. */
  function Unseen<T(==)>(xs: seq<T>, seen: seq<T>): seq<T>
  {
    if xs == [] then []
    else (if xs[0] in seen then [] else [xs[0]]) + Unseen(xs[1..], seen)
  }

  lemma {:induction false} UnseenAfterRemovingSeen<T>(xs: seq<T>, seen: seq<T>, a: T)
    requires a in seen
    ensures Unseen(RemoveAllOccurrences(xs, a), seen) == Unseen(xs, seen)
  {
    if xs != [] {
      UnseenAfterRemovingSeen(xs[1..], seen, a);
      var tail := RemoveAllOccurrences(xs[1..], a);
      if xs[0] == a {
        assert RemoveAllOccurrences(xs, a) == tail;
      } else {
        assert RemoveAllOccurrences(xs, a) == [xs[0]] + tail;
        assert ([xs[0]] + tail)[1..] == tail;
      }
    }
  }

  lemma {:induction false} UnseenExtended<T>(xs: seq<T>, seen: seq<T>, a: T)
    ensures Unseen(xs, seen + [a]) == Unseen(RemoveAllOccurrences(xs, a), seen)
  {
    if xs != [] {
      UnseenExtended(xs[1..], seen, a);
      var tail := RemoveAllOccurrences(xs[1..], a);
      if xs[0] == a {
        assert RemoveAllOccurrences(xs, a) == tail;
      } else {
        assert RemoveAllOccurrences(xs, a) == [xs[0]] + tail;
        assert ([xs[0]] + tail)[1..] == tail;
      }
    }
  }

  lemma {:induction false} AccumulateIsUnseenFirstOccurrences<T>(acc: seq<T>, rest: seq<T>)
    requires NoDuplicates(acc)
    ensures Accumulate(acc, rest) == acc + Unseen(FirstOccurrences(rest), acc)
    decreases rest
  {
    if rest == [] {
    } else {
      var a := rest[0];
      var tail := FirstOccurrences(rest[1..]);
      var firsts := [a] + RemoveAllOccurrences(tail, a);
      assert FirstOccurrences(rest) == firsts;
      assert firsts[1..] == RemoveAllOccurrences(tail, a);
      if a in acc {
        AccumulateIsUnseenFirstOccurrences(acc, rest[1..]);
        UnseenAfterRemovingSeen(tail, acc, a);
        assert Unseen(firsts, acc) == Unseen(RemoveAllOccurrences(tail, a), acc);
      } else {
        AccumulateIsUnseenFirstOccurrences(acc + [a], rest[1..]);
        UnseenExtended(tail, acc, a);
        assert Unseen(firsts, acc) == [a] + Unseen(RemoveAllOccurrences(tail, a), acc);
      }
    }
  }

  lemma {:induction false} UnseenOfNothing<T>(xs: seq<T>)
    ensures Unseen(xs, []) == xs
  {
    if xs != [] {
      UnseenOfNothing(xs[1..]);
    }
  }

  /** `duplicatesRemoved` keeps exactly the first occurrence of every element,
      in the input's order. */
  lemma DuplicatesRemovedKeepsFirstOccurrences<T>(s: seq<T>)
    ensures DuplicatesRemoved(s) == FirstOccurrences(s)
  {
    AccumulateIsUnseenFirstOccurrences([], s);
    UnseenOfNothing(FirstOccurrences(s));
  }

  lemma {:induction false} AccumulateNoDuplicates<T>(acc: seq<T>, rest: seq<T>)
    requires NoDuplicates(acc)
    requires NoDuplicates(acc + rest)
    ensures Accumulate(acc, rest) == acc + rest
    decreases rest
  {
    if rest != [] {
      assert (acc + rest)[|acc|] == rest[0];
      assert rest[0] !in acc by {
        forall i | 0 <= i < |acc| ensures acc[i] != rest[0] {
          assert (acc + rest)[i] == acc[i];
        }
      }
      assert acc + rest == (acc + [rest[0]]) + rest[1..];
      assert acc + [rest[0]] == (acc + rest)[..|acc| + 1];
      AccumulateNoDuplicates(acc + [rest[0]], rest[1..]);
    }
  }

  /** A sequence without duplicates comes back unchanged. */
  lemma DuplicatesRemovedOfDistinct<T>(s: seq<T>)
    requires NoDuplicates(s)
    ensures DuplicatesRemoved(s) == s
  {
    assert [] + s == s;
    AccumulateNoDuplicates([], s);
  }

  /** `removeDuplicates()` is idempotent. */
  lemma DuplicatesRemovedIdempotent<T>(s: seq<T>)
    ensures DuplicatesRemoved(DuplicatesRemoved(s)) == DuplicatesRemoved(s)
  {
    DuplicatesRemovedOfDistinct(DuplicatesRemoved(s));
  }

  lemma {:induction false} AccumulateSnoc<T>(acc: seq<T>, rest: seq<T>, x: T)
    requires NoDuplicates(acc)
    ensures Accumulate(acc, rest + [x])
         == Accumulate(acc, rest) + (if x in acc || x in rest then [] else [x])
    decreases rest
  {
    if rest == [] {
      assert rest + [x] == [x];
      assert [x][1..] == [];
    } else {
      var next := if rest[0] in acc then acc else acc + [rest[0]];
      assert (rest + [x])[0] == rest[0];
      assert (rest + [x])[1..] == rest[1..] + [x];
      AccumulateSnoc(next, rest[1..], x);
      assert x in next || x in rest[1..] <==> x in acc || x in rest by {
        assert rest == [rest[0]] + rest[1..];
      }
    }
  }

  /** Extending the input by one element extends the output by that element
      exactly when it is new. */
  lemma DuplicatesRemovedAppend<T>(s: seq<T>, x: T)
    ensures DuplicatesRemoved(s + [x]) == DuplicatesRemoved(s) + (if x in s then [] else [x])
  {
    AccumulateSnoc([], s, x);
  }
}

=== FILE: wrappers.dfy ===
/** Optional values and throwing results, standing in for Swift's `Optional`
    and for functions declared `throws`. */
module Wrappers {

  datatype Option<+T> = None | Some(value: T) {

    /** Swift's `x ?? default` */
    function GetOr(default: T): T {
      match this
      case Some(v) => v
      case None => default
    }
  }

  /** The outcome of a call that may throw: either its value or the error it threw. */
  datatype Result<+R, +E> = Success(value: R) | Failure(error: E)
}
